=== FILE: README.md ===
# StudyFlow task logic in Dafny

StudyFlow is a study-planning dashboard. Its state is one list of tasks. Each task has an id, a name, an ISO deadline and a completion flag. It may also carry a topic, a duration in minutes, an `"HH:MM"` start time and a link. This project models the logic behind the screens and proves properties of it:

- **Dashboard** (`Dashboard`): adding a task keeps the list sorted by deadline, with a stable sort. It also covers toggling completion by id, moving unfinished weekend tasks on by a week, the date buckets (today, this weekend, a selected day, this month, this week), and the completion-progress summary.
- **Day scheduler** (`DailyScheduler`): where a task's block sits in the day column, and which tasks are placed there at all.
- **Edit dialog** (`EditTaskDialog`): the values the form opens with, the task schema, and how the checked values are merged over the task.
- **Import action** (`ImportAction`): checks the import request, wraps pasted text as a `data:` URI (UTF-8, then base 64), and shapes the reply around an extractor that may fail.
- **Quick add** (`SelectedDayPanel`): the quick-add box of the selected-day panel.
- **Task card** (`TaskCard`): the icon, the overdue colour and the empty-list message.

Supporting modules:

- `Types`: the task record, `Option` and `Result`.
- `Seqs`: an order-preserving filter with its specification.
- `Text`: JavaScript's `trim`, `includes`, `split` and `Number` on the strings that occur here.
- `Calendar`: days, weekdays, Sunday-first weeks and Gregorian months over millisecond instants.
- `TimeFormat`: `"HH:MM"` texts.
- `Utf8`: UTF-8.
- `Base64`: base 64 as in section 4 of RFC 4648.

Everything is a pure function over immutable values. The clock reading `now`, the `Date.now()` used for ids, the URL check and the plan extractor are parameters.

Three observations came from writing the contracts; none of them is treated as a defect:

- The weekend bucket pairs the Sunday that opens the current week with the Saturday that closes it. A Saturday and the following Sunday always fall in different buckets (`Calendar.SaturdayAndNextSundaySplitWeeks`).
- The monthly card shows the empty-list text "No weekend tasks scheduled.", because only the "today" card sets `isTodayCard` (`TaskCard.EmptyMessage`).
- The dashboard passes its "Forward All to Next Weekend" button to `TaskCard` as children. The card does not render children.

## Model

| member | source | states |
|---|---|---|
| Dashboard.TaskIdsDistinct | src/components/Dashboard.tsx:56 | ids made at different milliseconds differ |
| Dashboard.NewTask | src/components/Dashboard.tsx:54-58 | the new task carries the draft's fields unchanged, the id `task-` followed by the clock reading, and is not completed |
| Dashboard.AddTask | src/components/Dashboard.tsx:53-60 | the list grows by one. It is the old tasks plus the new incomplete task, as a multiset, and it is sorted by deadline |
| Dashboard.SortByDeadline | src/components/Dashboard.tsx:59 | the sort returns a permutation of its input, in non-decreasing deadline order |
| Dashboard.InsertKeepsSorted | src/components/Dashboard.tsx:59 | one insertion step keeps a sorted list sorted |
| Dashboard.InsertMultiset | src/components/Dashboard.tsx:59 | one insertion step adds exactly the inserted task |
| Dashboard.InsertShape | src/components/Dashboard.tsx:59 | insertion splits the list at the first later deadline and moves nothing else |
| Dashboard.SortKeepsTies | src/components/Dashboard.tsx:59 | the sort is stable: tasks sharing a deadline keep their relative order |
| Dashboard.SortOfSorted | src/components/Dashboard.tsx:59 | sorting an already sorted list changes nothing |
| Dashboard.AddTaskKeepsTies | src/components/Dashboard.tsx:53-60 | among tasks sharing a deadline, the old ones keep their order and the new task comes last |
| Dashboard.AddTaskToSorted | src/components/Dashboard.tsx:53-60 | on a sorted list the new task lands after every task due no later and before every task due later; the old tasks keep their order |
| Dashboard.ToggleTaskCompletion | src/components/Dashboard.tsx:62-68 | length and order are kept; `completed` flips exactly on the tasks with the given id; no other field changes |
| Dashboard.ToggleTwice | src/components/Dashboard.tsx:62-68 | toggling the same id twice restores the list |
| Dashboard.ToggleUnknownId | src/components/Dashboard.tsx:62-68 | toggling an id no task carries changes nothing |
| Dashboard.ForwardWeekendTasks | src/components/Dashboard.tsx:70-79 | only deadlines change. They change exactly for unfinished Saturday or Sunday tasks, which move seven days on at the same time of day and keep their weekday |
| Dashboard.ForwardedTaskStaysForwardable | src/components/Dashboard.tsx:73-75 | completed tasks never move; a moved task is again an unfinished weekend task, in the following week |
| Dashboard.TodayTasks | src/components/Dashboard.tsx:81-88 | an order-preserving sub-list holding exactly the tasks due on the day of `now`, each as many times as it occurs in the list |
| Dashboard.WeekendTasks | src/components/Dashboard.tsx:90-101 | an order-preserving sub-list holding exactly the Saturday and Sunday tasks of the Sunday-first week of `now`, each as many times as it occurs in the list |
| Dashboard.SelectedDayTasks | src/components/Dashboard.tsx:103-110 | an order-preserving sub-list holding exactly the tasks due on the selected day, each as many times as it occurs in the list; empty when no day is selected |
| Dashboard.MonthlyTasks | src/components/Dashboard.tsx:112-119 | an order-preserving sub-list holding exactly the tasks due in the calendar month of `now`, each as many times as it occurs in the list |
| Dashboard.BucketsNestInWeek | src/components/Dashboard.tsx:132-139 | every task of the today and weekend buckets is also in the week list behind the weekly progress |
| Dashboard.WeeklyTasks | src/components/Dashboard.tsx:132-139 | an order-preserving sub-list holding exactly the tasks due in the Sunday-first week of `now`, each as many times as it occurs in the list |
| Dashboard.ToggleCommutesWithBucket | src/components/Dashboard.tsx:62-68 | toggling and then taking a date bucket equals taking the bucket and then toggling |
| Dashboard.ShareBounds | src/components/Dashboard.tsx:126 | a percentage `c / n * 100` with `c <= n` lies in [0, 100]; it is 100 exactly when `c = n` and 0 exactly when `c = 0` |
| Dashboard.CalculateProgress | src/components/Dashboard.tsx:121-130 | an empty list gives all zeros. Otherwise the total is the length, the completed count is the number of positions holding a completed task, progress is `completedCount / totalCount * 100` and lies in [0, 100]. Progress is 100 exactly when every task is completed and 0 exactly when none is |
| Dashboard.ForwardKeepsCompletedCount | src/components/Dashboard.tsx:70-79 | forwarding does not change how many tasks are completed |
| Dashboard.ForwardKeepsProgress | src/components/Dashboard.tsx:70-79 | forwarding leaves the progress of the whole list unchanged |
| Calendar.AddDays | src/components/Dashboard.tsx:74 | `addDays(t, n)` lands `n` days later at the same time of day |
| Calendar.AddWeekKeepsWeekday | src/components/Dashboard.tsx:74 | adding seven days keeps the weekday |
| Calendar.WeekOf | src/components/Dashboard.tsx:95-96 | the week of `now` runs from the midnight that opens its Sunday to the last millisecond of its Saturday, contains `now` and is seven days long |
| Calendar.MonthNumberMonotone | src/components/Dashboard.tsx:116 | the months, counted as `12 * year + month`, follow the order of the days |
| Calendar.MonthContiguous | src/components/Dashboard.tsx:116 | a calendar month is an interval of instants: an instant between two instants of one month is in that month |
| Calendar.EpochAnchor | src/components/Dashboard.tsx:116 | day 0 of the calendar is Thursday 1 January 1970 |
| Calendar.WithinWeekIff | src/components/Dashboard.tsx:97 | an instant lies in the week interval of `now` exactly when it shares `now`'s week-start day |
| Calendar.SaturdayAndNextSundaySplitWeeks | src/components/Dashboard.tsx:95-97 | a Saturday and the next day fall in consecutive Sunday-first weeks |
| Calendar.AddWeekNextWeek | src/components/Dashboard.tsx:74 | a task moved by seven days lands in the following week |
| DailyScheduler.HourSlots | src/components/DailyScheduler.tsx:15 | the hour rows are exactly 0 through 23 |
| DailyScheduler.TaskPosition | src/components/DailyScheduler.tsx:25-34 | a task without a start time or with a zero or missing duration sits at top 0 with height 0. Otherwise the height is the duration and the top is the start time read as minutes |
| DailyScheduler.IsScheduled | src/components/DailyScheduler.tsx:26 | a placed task has a start time and a duration; an empty start time or a zero duration is not placed; a task with a start time the edit schema accepts and a positive duration is placed |
| DailyScheduler.SignedHourAboveDay | src/components/DailyScheduler.tsx:27-30 | `Number` reads a minus sign, so a start time such as `"-01:30"` gives a negative top, above the first hour row |
| DailyScheduler.StartMinuteOfTimeText | src/components/DailyScheduler.tsx:27-30 | `"HH:MM"` gives top `HH * 60 + MM`, inside the row of hour `HH` and within the 1440-minute day |
| DailyScheduler.AcceptedStartTimeFitsDay | src/components/DailyScheduler.tsx:27-31 | every start time `"HH:MM"` the edit schema accepts gives the top `HH * 60 + MM`, which lies in [0, 1439], and the duration as height |
| DailyScheduler.NoColonIsNaN | src/components/DailyScheduler.tsx:27-30 | a start time without a colon has no minute field, so the top is NaN |
| DailyScheduler.Blocks | src/components/DailyScheduler.tsx:61-63 | blocks are drawn only for scheduled tasks, each at its computed position. Their tasks, in order, are an order-preserving sub-list of the list holding each scheduled task exactly as many times as it occurs |
| TimeFormat.TimePatternIff | src/components/EditTaskDialog.tsx:30 | the start-time pattern admits exactly the zero-padded times 00:00 to 23:59 |
| EditTaskDialog.ValidateWith | src/components/EditTaskDialog.tsx:26-32 | validation succeeds exactly when every field passes its check. On failure it names exactly the failing fields: an empty name is rejected and a blank one accepted; the duration must be a positive integer; the start time must match; the link must be empty or a URL. On success the values pass through; the duration is absent when the input is empty, the number itself for a number input, and `Number` of the text for typed text |
| EditTaskDialog.ValidateAsWritten | src/components/EditTaskDialog.tsx:26-32 | the schema as written accepts exactly a non-empty name, a positive integer or absent duration, a link that is empty or a URL, and a start time that is absent or matches the pattern; an empty start time is rejected on the start-time field |
| EditTaskDialog.Validate | src/components/EditTaskDialog.tsx:26-32 | the corrected schema accepts the same forms and also an empty start time, which it treats like an absent one |
| EditTaskDialog.DurationOf | src/components/EditTaskDialog.tsx:29 | a coerced duration that passes is positive: absent for an empty input, the number for a number input, `Number` of the text for typed text |
| EditTaskDialog.ValidatorsAgree | src/components/EditTaskDialog.tsx:30 | the schema as written and the corrected schema differ only on an empty start time |
| EditTaskDialog.Defaults | src/components/EditTaskDialog.tsx:39-45 | the form opens with the name copied, the task's duration as the number input (empty when absent), and absent topic, start time and link shown as `""` |
| EditTaskDialog.Save | src/components/EditTaskDialog.tsx:58-63 | the saved task keeps id, deadline and completion flag and takes every form field |
| EditTaskDialog.SubmitEdit | src/components/EditTaskDialog.tsx:26-63 | a submit with the schema as written saves exactly when validation passes, keeping id, deadline and completion flag and taking all five form fields, the duration as coerced; otherwise it reports the failing fields. An empty start time is always refused |
| EditTaskDialog.SubmitEditCorrected | src/components/EditTaskDialog.tsx:26-63 | a submit with the corrected schema gives the same result as the one as written on every form whose start time is not empty; a save keeps id, deadline and completion flag and takes all five form fields, the duration absent exactly when its input is empty, `n` for a number input and `Number(text)` for typed text |
| EditTaskDialog.UntouchedSaveRoundTrip | src/components/EditTaskDialog.tsx:39-63 | with the corrected schema, opening and saving at once succeeds exactly for a task whose fields the schema admits. The saved task is then the original with absent text fields written as `""` |
| EditTaskDialog.AsWrittenRejectsUnscheduled | src/components/EditTaskDialog.tsx:30 | with the schema as written, a task without a start time fails validation on its own defaults, on the start-time field, so saving it untouched is refused |
| ImportAction.ValidSource | src/app/actions.ts:7-18 | an unrecognised source is invalid; a file URI is valid exactly when it starts with `data:`; pasted text is valid exactly when its UTF-16 length, the characters plus one for each outside the basic multilingual plane, is at least ten; for text without such characters, exactly when it has ten or more characters |
| ImportAction.DocumentUri | src/app/actions.ts:28-41 | the URI handed to the extractor always starts with `data:`; a file's URI is passed verbatim; for text, base 64 then UTF-8 decoding of the payload gives back the text |
| ImportAction.TextDataUri | src/app/actions.ts:33-40 | pasted text becomes a URI starting with `data:text/plain;base64,` |
| ImportAction.HandleImport | src/app/actions.ts:20-50 | the reply reports an error exactly when it fails, and a failed reply has no tasks. Invalid input gives "Invalid input.". Success requires a valid request and returns exactly what the extractor made of the document URI. A valid request that fails means the extractor failed and gives the parse-failure message |
| ImportAction.InvalidIgnoresExtractor | src/app/actions.ts:23-26 | an invalid request is answered the same whatever the extractor does |
| ImportAction.FileUriForwarded | src/app/actions.ts:29-30 | a file source's reply depends only on what the extractor makes of that exact URI |
| ImportAction.TextActsAsDataUri | src/app/actions.ts:33-44 | valid pasted text behaves exactly like a valid file source carrying its data URI |
| ImportAction.TextDataUriDecodes | src/app/actions.ts:34-35 | after the prefix, base 64 then UTF-8 decoding give back the pasted text |
| ImportAction.TextDataUriInjective | src/app/actions.ts:34-35 | different texts are sent as different URIs |
| Base64.Encode | src/app/actions.ts:34 | the encoding has four characters per started three-byte group |
| Base64.RoundTrip | src/app/actions.ts:34 | strict decoding undoes base 64 encoding |
| Base64.EncodeInjective | src/app/actions.ts:34 | distinct byte strings have distinct encodings |
| Utf8.RoundTrip | src/app/actions.ts:34 | strict UTF-8 decoding undoes the encoding `Buffer.from` applies |
| Utf8.Utf16Length | src/app/actions.ts:15 | the string length the schema measures is the number of characters plus one for each character outside the basic multilingual plane; it lies between the number of characters and twice that |
| SelectedDayPanel.HandleAddTask | src/components/SelectedDayTasks.tsx:26-34 | blank input adds nothing and keeps the text. Otherwise exactly one draft is added and the box is emptied. The draft is due at the selected date and has no optional field. Its name is the input cut at its first and last non-whitespace characters, with only whitespace outside |
| SelectedDayPanel.TrimBeforeAddIsSame | src/components/SelectedDayTasks.tsx:27-29 | trimming the text before clicking adds the same draft |
| SelectedDayPanel.AddedTaskShownOnSelectedDay | src/components/SelectedDayTasks.tsx:28-31 | once added, the new task is listed, not completed, under the day it was added on |
| SelectedDayPanel.QuickAddedTaskBlocksEdit | src/components/SelectedDayTasks.tsx:28-31 | a quick-added task is refused when saved untouched with the schema as written, and saved with the corrected one |
| TaskCard.IconFor | src/components/TaskCard.tsx:20 | the target icon is chosen exactly when the title contains "Today" |
| TaskCard.TodayCardIcon | src/components/Dashboard.tsx:161 | the "today" card shows the target icon |
| TaskCard.WeekendCardIcon | src/components/Dashboard.tsx:162 | the weekend card shows the coffee cup |
| TaskCard.MonthlyCardIcon | src/components/Dashboard.tsx:157 | the monthly card shows the coffee cup |
| TaskCard.DeadlineColor | src/components/TaskCard.tsx:22-28 | there are two colours, and red is chosen exactly for a deadline that has passed and is not today |
| TaskCard.OverdueIffEarlierDay | src/components/TaskCard.tsx:24 | a deadline is overdue exactly when it falls on an earlier calendar day than now |
| TaskCard.EarlierTodayNotFlagged | src/components/TaskCard.tsx:24 | a deadline that has already passed today is never shown in red |
| TaskCard.EmptyMessage | src/components/TaskCard.tsx:69 | the "today" text is shown exactly on the today card, the weekend text on every other card |
| Text.Trim | src/components/SelectedDayTasks.tsx:27 | `trim` removes exactly the leading and trailing ECMAScript whitespace; the result is empty exactly for blank input |
| Text.SplitJoin | src/components/DailyScheduler.tsx:27 | joining the parts of `split` with the separator gives back the string |
| Text.DecimalRoundTrip | src/components/DailyScheduler.tsx:27 | the digit-run reading inside `Number` gives back the value of the decimal digits of a natural number |
| Text.NumberOfDecimal | src/components/DailyScheduler.tsx:27 | `Number(String(n))` is `n` for every natural number `n` |
| Text.ToNumber | src/components/DailyScheduler.tsx:27 | `Number` on a string: blank text is 0, a digit run is its value, a leading `-` negates and a leading `+` keeps it, and every text that is not such an integer is NaN; a negative result comes only from a leading `-` |

## Left out

- The localStorage load and save effects and their JSON parsing (src/components/Dashboard.tsx:31-51): browser I/O.
- The plan extractor (src/ai/flows/import-study-plan.ts) is a generative-model call. It is the parameter `extract`, which returns drafts or fails.
- TaskImport.tsx: file reading, toasts and dialog state.
- ProgressTracker.tsx: rendering plus a random quote.
- StudyCalendar.tsx: it only feeds the calendar widget.
- All JSX and styling, and the `format`/`formatTime` display strings.
- Calendar: instants are read on a UTC calendar. Time zones, daylight saving and locale settings of date-fns are not modelled. Deadlines are instants, so unparsable ISO strings and the `try`/`catch` around them in the bucket filters are not modelled.
- Dashboard.MonthlyTasks: membership is stated as "same Gregorian year and month as `now`". `Calendar.MonthContiguous` shows that such a month is an interval of instants, but its `startOfMonth`/`endOfMonth` end points are not built explicitly.
- Dashboard.AddTask: the clock reading behind the id is a parameter. Two adds in the same millisecond would share an id (`Dashboard.TaskIdsDistinct` needs different readings).
- Dashboard.CalculateProgress: the percentage is an exact `real`, without IEEE rounding.
- Text.ToNumber: only surrounding whitespace, the empty string and runs of decimal digits with an optional leading `-` or `+` are read. Fractions, exponents, hexadecimal and `Infinity` are treated as NaN, and `-0` is read as 0. This can differ from JavaScript only for start times and typed durations outside the `"HH:MM"` and signed-integer forms.
- EditTaskDialog.ValidateWith: URL syntax is the parameter `isUrl`. Typed durations such as `"1e3"`, which `Number` reads as 1000, are rejected here.
- ImportAction.HandleImport: the request is one of the two source shapes or `Unrecognised`. Zod's full parsing of arbitrary objects, and lone UTF-16 surrogates in pasted text, are not modelled: a Dafny `char` is a Unicode scalar value.
- The `console.error` call on extractor failure is left out.

## Findings

| source | as written | input that shows it | evidently intended | confidence | as-written member | corrected member |
|---|---|---|---|---|---|---|
| src/components/EditTaskDialog.tsx:30 | the start time must be absent or match `HH:MM`, but the form opens with `""` for a task without a start time (lines 43 and 53) | a task without `startTime`, such as one quick-added from the selected-day panel, opened and saved unchanged: the save is refused with "Invalid time format (HH:MM)." | accept `""` as the link field does with `.or(z.literal(''))`, so an unscheduled task can be edited without inventing a start time | medium; not executed | EditTaskDialog.AsWrittenRejectsUnscheduled | EditTaskDialog.UntouchedSaveRoundTrip |

`EditTaskDialog.ValidateAsWritten` is the schema as written, and `EditTaskDialog.SubmitEdit` uses it, as the dialog does. `EditTaskDialog.Validate` accepts the empty start time, and `EditTaskDialog.SubmitEditCorrected` uses it; `EditTaskDialog.UntouchedSaveRoundTrip` is stated about the corrected submit.

=== FILE: base64.dfy ===
/** Base 64 encoding with padding, as defined in section 4 of RFC 4648 (the standard
    alphabet `A`-`Z`, `a`-`z`, `0`-`9`, `+`, `/` and the pad character `=`), which is
    what Node's `Buffer.toString('base64')` produces. A strict decoder is given as the
    encoder's inverse. */
module Base64 {
  import opened Types

  type Sextet = x: int | 0 <= x < 64

  const Pad: char := '='

  /** The character of the base 64 alphabet (Table 1 of RFC 4648) for value `v`. */
  function EncodeSextet(v: Sextet): (c: char)
    ensures c != Pad
  {
    if v < 26 then ('A' as int + v) as char
    else if v < 52 then ('a' as int + (v - 26)) as char
    else if v < 62 then ('0' as int + (v - 52)) as char
    else if v == 62 then '+'
    else '/'
  }

  /** The value of an alphabet character; anything else (including the pad) is rejected. */
  function DecodeChar(c: char): Option<Sextet> {
    if 'A' <= c <= 'Z' then Some(c as int - 'A' as int)
    else if 'a' <= c <= 'z' then Some(c as int - 'a' as int + 26)
    else if '0' <= c <= '9' then Some(c as int - '0' as int + 52)
    else if c == '+' then Some(62)
    else if c == '/' then Some(63)
    else None
  }

  /** Each alphabet character decodes back to the value it encodes. */
  lemma DecodeEncodeSextet(v: Sextet)
    ensures DecodeChar(EncodeSextet(v)) == Some(v)
  {
  }

  /** Three bytes as four characters. */
  function EncodeGroup(a: Byte, b: Byte, c: Byte): string {
    [EncodeSextet(a / 4), EncodeSextet((a % 4) * 16 + b / 16),
     EncodeSextet((b % 16) * 4 + c / 64), EncodeSextet(c % 64)]
  }

  /** A final group of two bytes: three characters and one pad. */
  function EncodeTwo(a: Byte, b: Byte): string {
    [EncodeSextet(a / 4), EncodeSextet((a % 4) * 16 + b / 16), EncodeSextet((b % 16) * 4), Pad]
  }

  /** A final group of one byte: two characters and two pads. */
  function EncodeOne(a: Byte): string {
    [EncodeSextet(a / 4), EncodeSextet((a % 4) * 16), Pad, Pad]
  }

  /** The base 64 encoding of `bs`: every started group of three bytes becomes four
      characters, and only the last group carries padding. */
  function Encode(bs: seq<Byte>): (s: string)
    ensures |s| == 4 * ((|bs| + 2) / 3)
    decreases |bs|
  {
    if |bs| == 0 then ""
    else if |bs| == 1 then EncodeOne(bs[0])
    else if |bs| == 2 then EncodeTwo(bs[0], bs[1])
    else EncodeGroup(bs[0], bs[1], bs[2]) + Encode(bs[3..])
  }

  /** The byte made of all six bits of `hi` and the top two bits of `lo`. */
  function Join62(hi: Sextet, lo: Sextet): Byte {
    (hi as int) * 4 + (lo as int) / 16
  }

  /** The byte made of the low four bits of `hi` and the top four bits of `lo`. */
  function Join44(hi: Sextet, lo: Sextet): Byte {
    ((hi as int) % 16) * 16 + (lo as int) / 4
  }

  /** The byte made of the low two bits of `hi` and all six bits of `lo`. */
  function Join26(hi: Sextet, lo: Sextet): Byte {
    ((hi as int) % 4) * 64 + lo as int
  }

  /** Four alphabet characters as three bytes. */
  function DecodeGroup(q: string): Option<seq<Byte>>
    requires |q| == 4
  {
    match (DecodeChar(q[0]), DecodeChar(q[1]), DecodeChar(q[2]), DecodeChar(q[3]))
    case (Some(c0), Some(c1), Some(c2), Some(c3)) =>
      Some([Join62(c0, c1), Join44(c1, c2), Join26(c2, c3)])
    case _ => None
  }

  /** The final group, which may end in one or two pads; bits the pad discards must be zero. */
  function DecodeLast(q: string): Option<seq<Byte>>
    requires |q| == 4
  {
    if q[2] == Pad && q[3] == Pad then
      match (DecodeChar(q[0]), DecodeChar(q[1]))
      case (Some(c0), Some(c1)) =>
        if c1 % 16 == 0 then Some([Join62(c0, c1)]) else None
      case _ => None
    else if q[3] == Pad then
      match (DecodeChar(q[0]), DecodeChar(q[1]), DecodeChar(q[2]))
      case (Some(c0), Some(c1), Some(c2)) =>
        if c2 % 4 == 0 then Some([Join62(c0, c1), Join44(c1, c2)]) else None
      case _ => None
    else DecodeGroup(q)
  }

  /** Strict base 64 decoding: `None` unless `s` is a canonical padded encoding. */
  function Decode(s: string): Option<seq<Byte>>
    decreases |s|
  {
    if |s| == 0 then Some([])
    else if |s| < 4 then None
    else if |s| == 4 then DecodeLast(s)
    else match DecodeGroup(s[..4])
      case None => None
      case Some(g) =>
        match Decode(s[4..])
        case None => None
        case Some(rest) => Some(g + rest)
  }

  lemma GroupRoundTrip(a: Byte, b: Byte, c: Byte)
    ensures DecodeGroup(EncodeGroup(a, b, c)) == Some([a, b, c])
  {
    var c0, c1, c2, c3 := a / 4, (a % 4) * 16 + b / 16, (b % 16) * 4 + c / 64, c % 64;
    DecodeEncodeSextet(c0);
    DecodeEncodeSextet(c1);
    DecodeEncodeSextet(c2);
    DecodeEncodeSextet(c3);
    assert c1 / 16 == a % 4 && c1 % 16 == b / 16;
    assert c2 / 4 == b % 16 && c2 % 4 == c / 64;
  }

  lemma TwoRoundTrip(a: Byte, b: Byte)
    ensures DecodeLast(EncodeTwo(a, b)) == Some([a, b])
  {
    var c0, c1, c2 := a / 4, (a % 4) * 16 + b / 16, (b % 16) * 4;
    DecodeEncodeSextet(c0);
    DecodeEncodeSextet(c1);
    DecodeEncodeSextet(c2);
    assert c1 / 16 == a % 4 && c1 % 16 == b / 16;
    assert c2 / 4 == b % 16 && c2 % 4 == 0;
  }

  lemma OneRoundTrip(a: Byte)
    ensures DecodeLast(EncodeOne(a)) == Some([a])
  {
    DecodeEncodeSextet(a / 4);
    DecodeEncodeSextet((a % 4) * 16);
  }

  /** Decoding a full group followed by more input decodes the group, then the rest. */
  lemma DecodeStep(g: string, rest: string, bs: seq<Byte>, tail: seq<Byte>)
    requires |g| == 4 && |rest| >= 4
    requires DecodeGroup(g) == Some(bs) && Decode(rest) == Some(tail)
    ensures Decode(g + rest) == Some(bs + tail)
  {
    assert (g + rest)[..4] == g && (g + rest)[4..] == rest;
  }

  lemma ThreeRoundTrip(bs: seq<Byte>)
    requires |bs| == 3
    ensures Decode(Encode(bs)) == Some(bs)
  {
    GroupRoundTrip(bs[0], bs[1], bs[2]);
    assert Encode(bs[3..]) == "";
    assert Encode(bs) == EncodeGroup(bs[0], bs[1], bs[2]);
    assert bs == [bs[0], bs[1], bs[2]];
  }

  lemma EncodeUnfold(bs: seq<Byte>)
    requires |bs| > 3
    ensures Encode(bs) == EncodeGroup(bs[0], bs[1], bs[2]) + Encode(bs[3..])
    ensures |Encode(bs[3..])| >= 4
  {
  }

  lemma SplitThree(bs: seq<Byte>)
    requires |bs| >= 3
    ensures bs == [bs[0], bs[1], bs[2]] + bs[3..]
  {
  }

  lemma LongRoundTrip(bs: seq<Byte>, tail: seq<Byte>)
    requires |bs| > 3 && tail == bs[3..]
    requires Decode(Encode(tail)) == Some(tail)
    ensures Decode(Encode(bs)) == Some(bs)
  {
    var a, b, c := bs[0], bs[1], bs[2];
    EncodeUnfold(bs);
    GroupRoundTrip(a, b, c);
    DecodeStep(EncodeGroup(a, b, c), Encode(tail), [a, b, c], tail);
    SplitThree(bs);
  }

  /** Decoding undoes encoding, so distinct byte strings never share an encoding. */
  lemma {:induction false} RoundTrip(bs: seq<Byte>)
    ensures Decode(Encode(bs)) == Some(bs)
    decreases |bs|
  {
    if |bs| == 1 {
      OneRoundTrip(bs[0]);
      assert Encode(bs) == EncodeOne(bs[0]);
      assert bs == [bs[0]];
    } else if |bs| == 2 {
      TwoRoundTrip(bs[0], bs[1]);
      assert bs == [bs[0], bs[1]];
    } else if |bs| == 3 {
      ThreeRoundTrip(bs);
    } else if |bs| > 3 {
      RoundTrip(bs[3..]);
      LongRoundTrip(bs, bs[3..]);
    }
  }

  lemma EncodeInjective(a: seq<Byte>, b: seq<Byte>)
    requires Encode(a) == Encode(b)
    ensures a == b
  {
    RoundTrip(a);
    RoundTrip(b);
  }
}

=== FILE: calendar.dfy ===
/** An abstract UTC calendar over millisecond instants, standing in for the date-fns
    helpers the dashboard calls (`isToday`, `isSameDay`, `isSaturday`, `isSunday`,
    `addDays`, `startOfWeek`/`endOfWeek`, `startOfMonth`/`endOfMonth`, `isWithinInterval`,
    `isPast`). Weeks start on Sunday, the date-fns default. */
module Calendar {
  import opened Types

  const MsPerDay: int := 86_400_000

  const Sunday: int := 0
  const Thursday: int := 4
  const Saturday: int := 6

  /** The calendar day of `t`, counted from 1970-01-01 (floor division, so instants
      before the epoch fall on negative days). */
  function DayOf(t: Instant): int {
    t / MsPerDay
  }

  /** Midnight at the start of the day of `t`. */
  function StartOfDay(t: Instant): (s: Instant)
    ensures s <= t < s + MsPerDay
    ensures DayOf(s) == DayOf(t)
  {
    DayOf(t) * MsPerDay
  }

  /** The weekday of day number `d`, 0 = Sunday through 6 = Saturday (`getDay`). */
  function WeekdayOfDay(d: int): (w: int)
    ensures 0 <= w < 7
  {
    (d + Thursday) % 7
  }

  function WeekdayOf(t: Instant): int {
    WeekdayOfDay(DayOf(t))
  }

  predicate IsSaturday(t: Instant) {
    WeekdayOf(t) == Saturday
  }

  predicate IsSunday(t: Instant) {
    WeekdayOf(t) == Sunday
  }

  predicate IsWeekendDay(t: Instant) {
    IsSaturday(t) || IsSunday(t)
  }

  predicate IsSameDay(a: Instant, b: Instant) {
    DayOf(a) == DayOf(b)
  }

  /** `isToday(t)` with the clock reading `now`. */
  predicate IsToday(t: Instant, now: Instant) {
    IsSameDay(t, now)
  }

  /** `isPast(t)`: strictly before the clock reading `now`. */
  predicate IsPast(t: Instant, now: Instant) {
    t < now
  }

  /** `addDays(t, n)`: the same time of day, `n` calendar days later. */
  function AddDays(t: Instant, n: int): (r: Instant)
    ensures DayOf(r) == DayOf(t) + n
    ensures r - StartOfDay(r) == t - StartOfDay(t)
  {
    var r := t + n * MsPerDay;
    assert r / MsPerDay == t / MsPerDay + n;
    r
  }

  /** Shifting by a whole week keeps the weekday. */
  lemma AddWeekKeepsWeekday(t: Instant)
    ensures WeekdayOf(AddDays(t, 7)) == WeekdayOf(t)
  {
    var d := DayOf(t);
    assert DayOf(AddDays(t, 7)) == d + 7;
    assert (d + 7 + Thursday) % 7 == (d + Thursday) % 7;
  }

  /** Days are ordered like the instants in them. */
  lemma DayOfMonotone(a: Instant, b: Instant)
    requires a <= b
    ensures DayOf(a) <= DayOf(b)
  {
    var da, db := DayOf(a), DayOf(b);
    assert da * MsPerDay <= a <= b < (db + 1) * MsPerDay;
  }

  datatype Interval = Interval(start: Instant, end: Instant)

  /** `isWithinInterval(t, {start, end})`: both ends included. */
  predicate IsWithinInterval(t: Instant, iv: Interval) {
    iv.start <= t <= iv.end
  }

  /** The day number of the Sunday that opens the week of `t`. */
  function WeekStartDay(t: Instant): (w: int)
    ensures (w + Thursday) % 7 == Sunday
    ensures w <= DayOf(t) < w + 7
  {
    DayOf(t) - WeekdayOf(t)
  }

  /** `{ start: startOfWeek(now), end: endOfWeek(now) }`: Sunday 00:00:00.000 through
      Saturday 23:59:59.999. */
  function WeekOf(now: Instant): (iv: Interval)
    ensures iv.start <= now <= iv.end
    ensures iv.end - iv.start == 7 * MsPerDay - 1
    ensures iv.start == WeekStartDay(now) * MsPerDay
    ensures StartOfDay(iv.start) == iv.start && IsSunday(iv.start) && IsSaturday(iv.end)
  {
    var s := WeekStartDay(now) * MsPerDay;
    assert DayOf(s) == WeekStartDay(now);
    assert DayOf(s + 7 * MsPerDay - 1) == WeekStartDay(now) + 6;
    Interval(s, s + 7 * MsPerDay - 1)
  }

  /** An instant lies in the week interval of `now` exactly when its week opens on the
      same Sunday as that of `now`. */
  lemma WithinWeekIff(t: Instant, now: Instant)
    ensures IsWithinInterval(t, WeekOf(now)) <==> WeekStartDay(t) == WeekStartDay(now)
  {
    var w, d := WeekStartDay(now), DayOf(t);
    assert d * MsPerDay <= t < (d + 1) * MsPerDay;
    assert IsWithinInterval(t, WeekOf(now)) <==> w <= d < w + 7;
    var k := (w + Thursday) / 7;
    assert w + Thursday == 7 * k;
    assert w <= d < w + 7 ==> d + Thursday == 7 * k + (d - w);
    assert w <= d < w + 7 ==> (d + Thursday) % 7 == d - w;
  }

  /** A Saturday and the Sunday right after it belong to different Sunday-to-Saturday weeks. */
  lemma SaturdayAndNextSundaySplitWeeks(t: Instant)
    requires IsSaturday(t)
    ensures IsSunday(AddDays(t, 1))
    ensures WeekStartDay(AddDays(t, 1)) == WeekStartDay(t) + 7
  {
    var d := DayOf(t);
    assert DayOf(AddDays(t, 1)) == d + 1;
    assert (d + 1 + Thursday) % 7 == 0;
  }

  /** Shifting by a week moves an instant into the following week. */
  lemma AddWeekNextWeek(t: Instant)
    ensures WeekStartDay(AddDays(t, 7)) == WeekStartDay(t) + 7
  {
    AddWeekKeepsWeekday(t);
  }

  /** A date of the proleptic Gregorian calendar. */
  datatype CivilDate = CivilDate(year: int, month: int, day: int)

  /** The Gregorian date of day number `z` (days since 1970-01-01), by the era-of-400-years
      method: count from 0000-03-01 so that the leap day closes each shifted year. */
  function CivilFromDays(z: int): CivilDate {
    var era, doe := EraOf(z), DayOfEra(z);
    var yoe := YearOfEra(doe);
    var doy := DayOfYear(doe);
    var mp := MonthIndex(doy);
    var d := doy - (153 * mp + 2) / 5 + 1;
    var m := if mp < 10 then mp + 3 else mp - 9;
    var y := yoe + era * 400;
    CivilDate(if m <= 2 then y + 1 else y, m, d)
  }

  /** The 400-year era of day `z`, counted from 0000-03-01 (floor division). */
  function EraOf(z: int): int {
    (z + 719468) / 146097
  }

  /** The day of `z` within its era, 0 to 146096. */
  function DayOfEra(z: int): int {
    z + 719468 - EraOf(z) * 146097
  }

  /** The year within the era of day `doe` of the era; shifted years start on 1 March. */
  function YearOfEra(doe: int): int {
    (doe - doe / 1460 + doe / 36524 - doe / 146096) / 365
  }

  /** The day of day `doe` of the era within its shifted year, counted from 1 March. */
  function DayOfYear(doe: int): int {
    var yoe := YearOfEra(doe);
    doe - (365 * yoe + yoe / 4 - yoe / 100)
  }

  /** The month of a shifted day of the year: 0 for March through 11 for February. */
  function MonthIndex(doy: int): int {
    (5 * doy + 2) / 153
  }

  /** The months in order: `12 * year + month` counts the months since year 0. */
  function MonthNumber(z: int): int {
    var c := CivilFromDays(z);
    12 * c.year + c.month
  }

  /** `doe` as `c` centuries, `q` four-year blocks and `f` days into the block. */
  predicate InBlock(c: int, q: int, f: int) {
    0 <= c < 4 && 0 <= q < 25 && 0 <= f < 1461 && 1461 * q + f < 36524
  }

  lemma BlockDivisions(doe: int, c: int, q: int, f: int)
    requires InBlock(c, q, f) && doe == 36524 * c + 1461 * q + f
    ensures doe / 1460 == 25 * c + q + (24 * c + q + f) / 1460
    ensures doe / 36524 == c && doe / 146096 == 0
  {
    assert doe == 1460 * (25 * c + q) + (24 * c + q + f);
  }

  lemma BlockYearBounds(c: int, q: int, f: int)
    requires InBlock(c, q, f)
    ensures var delta := (24 * c + q + f) / 1460;
      0 <= delta <= 1 && 0 <= (f - delta) / 365 <= 3 && (delta == 1 ==> (f - delta) / 365 == 3)
  {
  }

  lemma YearsOfBlock(g: int, c: int, q: int, r: int)
    requires 0 <= c < 4 && 0 <= q < 25 && g == 36500 * c + 1460 * q + r && 0 <= r && r / 365 <= 3
    ensures g / 365 == 100 * c + 4 * q + r / 365
  {
    assert g == 365 * (100 * c + 4 * q) + r;
  }

  lemma LeapCorrections(yoe: int, c: int, q: int, y: int)
    requires 0 <= c < 4 && 0 <= q < 25 && 0 <= y <= 3 && yoe == 100 * c + 4 * q + y
    ensures yoe / 4 == 25 * c + q && yoe / 100 == c
  {
  }

  /** Inside a four-year block the shifted year and day are read off the block offset. */
  lemma BlockYear(doe: int, c: int, q: int, f: int)
    requires InBlock(c, q, f) && doe == 36524 * c + 1461 * q + f
    ensures var y := (f - (24 * c + q + f) / 1460) / 365;
      && 0 <= y <= 3
      && YearOfEra(doe) == 100 * c + 4 * q + y && DayOfYear(doe) == f - 365 * y
      && 0 <= DayOfYear(doe) <= 365
  {
    BlockDivisions(doe, c, q, f);
    BlockYearBounds(c, q, f);
    var delta := (24 * c + q + f) / 1460;
    var g := doe - doe / 1460 + doe / 36524 - doe / 146096;
    assert g == 36500 * c + 1460 * q + (f - delta);
    YearsOfBlock(g, c, q, f - delta);
    LeapCorrections(YearOfEra(doe), c, q, (f - delta) / 365);
  }

  /** Every day of an era but the last lies in a four-year block. */
  lemma BlockOf(doe: int) returns (c: int, q: int, f: int)
    requires 0 <= doe < 146096
    ensures InBlock(c, q, f) && doe == 36524 * c + 1461 * q + f
  {
    c := doe / 36524;
    var e := doe % 36524;
    q := e / 1461;
    f := e % 1461;
  }

  /** The month count within an era. */
  function EraMonth(doe: int): int {
    12 * YearOfEra(doe) + MonthIndex(DayOfYear(doe))
  }

  /** A shifted year has at most 366 days, so its month index stays in 0 to 11. */
  lemma DayOfYearBounds(doe: int)
    requires 0 <= doe < 146097
    ensures 0 <= DayOfYear(doe) <= 365 && 0 <= MonthIndex(DayOfYear(doe)) <= 11
  {
    if doe < 146096 {
      var c, q, f := BlockOf(doe);
      BlockYear(doe, c, q, f);
    } else {
      assert YearOfEra(doe) == 399;
    }
  }

  /** Month indices follow the days of the shifted year. */
  lemma MonthIndexMonotone(d1: int, d2: int)
    requires d1 <= d2
    ensures MonthIndex(d1) <= MonthIndex(d2)
  {
  }

  /** From one day to the next the month count stays or moves on: either the same shifted
      year one day later, or a later year. */
  lemma MonthCountStep(y1: int, d1: int, y2: int, d2: int)
    requires 0 <= d1 <= 365 && 0 <= d2 <= 365
    requires (y2 == y1 && d2 == d1 + 1) || y2 > y1
    ensures 12 * y1 + MonthIndex(d1) <= 12 * y2 + MonthIndex(d2)
  {
    if y2 == y1 {
      MonthIndexMonotone(d1, d2);
    }
  }

  /** One day on inside a four-year block: the shifted year stays and the day advances,
      or the year advances. */
  lemma BlockStep(doe: int, c: int, q: int, f: int)
    requires InBlock(c, q, f) && InBlock(c, q, f + 1) && doe == 36524 * c + 1461 * q + f
    ensures (YearOfEra(doe + 1) == YearOfEra(doe) && DayOfYear(doe + 1) == DayOfYear(doe) + 1)
            || YearOfEra(doe + 1) > YearOfEra(doe)
  {
    BlockYear(doe, c, q, f);
    BlockYear(doe + 1, c, q, f + 1);
    var delta, delta' := (24 * c + q + f) / 1460, (24 * c + q + f + 1) / 1460;
    assert delta <= delta' <= delta + 1;
  }

  /** From one day of the era to the next the shifted year stays and the day advances,
      or the year advances. */
  lemma DayStep(doe: int)
    requires 0 <= doe < 146096
    ensures (YearOfEra(doe + 1) == YearOfEra(doe) && DayOfYear(doe + 1) == DayOfYear(doe) + 1)
            || YearOfEra(doe + 1) > YearOfEra(doe)
  {
    if doe + 1 == 146096 {
      LastDaysOfEra();
    } else {
      var c, q, f := BlockOf(doe);
      if InBlock(c, q, f + 1) {
        BlockStep(doe, c, q, f);
      } else if 1461 * q + f + 1 < 36524 {
        BlockYear(doe, c, q, f);
        BlockYear(doe + 1, c, q + 1, 0);
      } else {
        BlockYear(doe, c, q, f);
        BlockYear(doe + 1, c + 1, 0, 0);
      }
    }
  }

  /** The month count never goes back from one day of the era to the next. */
  lemma EraMonthStep(doe: int)
    requires 0 <= doe < 146096
    ensures EraMonth(doe) <= EraMonth(doe + 1)
  {
    DayOfYearBounds(doe);
    DayOfYearBounds(doe + 1);
    DayStep(doe);
    MonthCountStep(YearOfEra(doe), DayOfYear(doe), YearOfEra(doe + 1), DayOfYear(doe + 1));
  }

  /** The month count in terms of era and month index, with the month in 1 to 12. */
  lemma MonthNumberForm(z: int)
    ensures 1 <= CivilFromDays(z).month <= 12
    ensures MonthNumber(z) == 12 * (400 * EraOf(z)) + EraMonth(DayOfEra(z)) + 3
  {
    DayOfYearBounds(DayOfEra(z));
  }

  /** From one day to the next the era either stays, one day further on, or the last day
      of an era is followed by the first day of the next. */
  lemma EraStep(z: int)
    ensures 0 <= DayOfEra(z) < 146097
    ensures || (DayOfEra(z) < 146096 && EraOf(z + 1) == EraOf(z) && DayOfEra(z + 1) == DayOfEra(z) + 1)
            || (DayOfEra(z) == 146096 && EraOf(z + 1) == EraOf(z) + 1 && DayOfEra(z + 1) == 0)
  {
  }

  /** An era holds the 4800 months of its 400 shifted years. */
  lemma EraMonthBounds(doe: int)
    requires 0 <= doe < 146097
    ensures 0 <= EraMonth(doe) <= 4799
  {
    DayOfYearBounds(doe);
    if doe < 146096 {
      var c, q, f := BlockOf(doe);
      BlockYear(doe, c, q, f);
    } else {
      LastDaysOfEra();
    }
  }

  /** The last two days of an era: 28 and 29 February of its last shifted year. */
  lemma LastDaysOfEra()
    ensures YearOfEra(146095) == 399 && DayOfYear(146095) == 364
    ensures YearOfEra(146096) == 399 && DayOfYear(146096) == 365
  {
    assert 146095 / 1460 == 100 && 146095 / 36524 == 3 && 146095 / 146096 == 0;
    assert (146095 - 100 + 3) / 365 == 399;
    assert 146096 / 1460 == 100 && 146096 / 36524 == 4 && 146096 / 146096 == 1;
    assert (146096 - 100 + 4 - 1) / 365 == 399;
    assert 399 / 4 == 99 && 399 / 100 == 3;
  }

  lemma MonthCountAcrossEras(m1: int, e1: int, k1: int, m2: int, e2: int, k2: int)
    requires m1 == 4800 * e1 + k1 + 3 && m2 == 4800 * e2 + k2 + 3
    requires (e2 == e1 && k1 <= k2) || (e2 == e1 + 1 && k1 <= 4799 && 0 <= k2)
    ensures m1 <= m2
  {
  }

  /** The month count never goes back from one day to the next. */
  lemma MonthNumberStep(z: int)
    ensures MonthNumber(z) <= MonthNumber(z + 1)
  {
    MonthNumberForm(z);
    MonthNumberForm(z + 1);
    EraStep(z);
    if DayOfEra(z) < 146096 {
      EraMonthStep(DayOfEra(z));
    } else {
      EraMonthBounds(DayOfEra(z));
      EraMonthBounds(DayOfEra(z + 1));
    }
    MonthCountAcrossEras(MonthNumber(z), EraOf(z), EraMonth(DayOfEra(z)),
                         MonthNumber(z + 1), EraOf(z + 1), EraMonth(DayOfEra(z + 1)));
  }

  /** Months are in the order of their days. */
  lemma {:induction false} MonthNumberMonotone(a: int, b: int)
    requires a <= b
    ensures MonthNumber(a) <= MonthNumber(b)
    decreases b - a
  {
    if a < b {
      MonthNumberMonotone(a, b - 1);
      MonthNumberStep(b - 1);
    }
  }

  /** The calendar month of `t` as a (year, month) pair. */
  function MonthOf(t: Instant): (int, int) {
    var c := CivilFromDays(DayOf(t));
    (c.year, c.month)
  }

  /** `isWithinInterval(t, { start: startOfMonth(now), end: endOfMonth(now) })`: `t` falls
      in the calendar month of `now`. */
  predicate IsSameMonth(t: Instant, now: Instant) {
    MonthOf(t) == MonthOf(now)
  }

  /** A calendar month is a contiguous stretch of time: an instant between two instants of
      the same month lies in that month, as `startOfMonth`..`endOfMonth` demands. */
  lemma MonthContiguous(a: Instant, b: Instant, c: Instant)
    requires a <= b <= c && IsSameMonth(a, c)
    ensures IsSameMonth(b, a)
  {
    DayOfMonotone(a, b);
    DayOfMonotone(b, c);
    MonthNumberMonotone(DayOf(a), DayOf(b));
    MonthNumberMonotone(DayOf(b), DayOf(c));
    SameMonthIffSameNumber(a, c);
    SameMonthIffSameNumber(b, a);
  }

  /** Two instants share a month exactly when they have the same month count. */
  lemma SameMonthIffSameNumber(a: Instant, b: Instant)
    ensures IsSameMonth(a, b) <==> MonthNumber(DayOf(a)) == MonthNumber(DayOf(b))
  {
    MonthNumberForm(DayOf(a));
    MonthNumberForm(DayOf(b));
    NumberDeterminesMonth(CivilFromDays(DayOf(a)), CivilFromDays(DayOf(b)));
  }

  lemma NumberDeterminesMonth(c1: CivilDate, c2: CivilDate)
    requires 1 <= c1.month <= 12 && 1 <= c2.month <= 12
    ensures (c1.year, c1.month) == (c2.year, c2.month) <==> 12 * c1.year + c1.month == 12 * c2.year + c2.month
  {
  }

  /** Calendar anchor: the epoch is Thursday 1970-01-01. */
  lemma EpochAnchor()
    ensures CivilFromDays(0) == CivilDate(1970, 1, 1) && WeekdayOfDay(0) == Thursday
  {
  }
}

=== FILE: dashboard.dfy ===
/** The pure task-list operations of the dashboard component: adding a task (kept in
    deadline order), toggling completion, forwarding weekend tasks, the date buckets
    shown on the cards, and the completion-progress summary. The list is an immutable
    sequence; each operation returns the list the component would store next. */
module Dashboard {
  import opened Types
  import opened Seqs
  import opened Text
  import opened Calendar

  // ---------------------------------------------------------------------------------
  // Adding a task

  const TaskIdPrefix: string := "task-"

  /** The id `task-${Date.now()}` for the clock reading `nowMs`. */
  function TaskIdAt(nowMs: nat): string {
    TaskIdPrefix + NatToDecimal(nowMs)
  }

  /** Tasks created at different milliseconds get different ids. */
  lemma TaskIdsDistinct(a: nat, b: nat)
    requires a != b
    ensures TaskIdAt(a) != TaskIdAt(b)
  {
    if TaskIdAt(a) == TaskIdAt(b) {
      assert TaskIdAt(a)[|TaskIdPrefix|..] == NatToDecimal(a);
      assert TaskIdAt(b)[|TaskIdPrefix|..] == NatToDecimal(b);
      NatToDecimalInjective(a, b);
    }
  }

  /** The fields of a task other than its id and completion flag. */
  function DraftOf(t: Task): TaskDraft {
    TaskDraft(t.taskName, t.deadline, t.topic, t.duration, t.startTime, t.link)
  }

  /** The task `{ ...draft, id, completed: false }`: the draft's fields unchanged, an id
      made from the clock reading, and not yet completed. */
  function NewTask(draft: TaskDraft, nowMs: nat): (t: Task)
    ensures DraftOf(t) == draft
    ensures t.id == TaskIdAt(nowMs) && !t.completed
  {
    Task(TaskIdAt(nowMs), draft.taskName, draft.deadline, false,
         draft.topic, draft.duration, draft.startTime, draft.link)
  }

  /** The deadline of the `i`-th task; sortedness is stated on this term alone, which keeps
      the verifier from applying it to every task of every list in sight. */
  function DeadlineAt(s: seq<Task>, i: int): Instant
    requires 0 <= i < |s|
  {
    s[i].deadline
  }

  /** Deadlines never decrease along the list. */
  predicate SortedByDeadline(s: seq<Task>) {
    forall i, j :: 0 <= i < j < |s| ==> DeadlineAt(s, i) <= DeadlineAt(s, j)
  }

  /** Every slice of a sorted list is sorted. */
  lemma SortedSlice(s: seq<Task>, a: int, b: int)
    requires SortedByDeadline(s) && 0 <= a <= b <= |s|
    ensures SortedByDeadline(s[a..b])
  {
    forall i, j | 0 <= i < j < b - a
      ensures DeadlineAt(s[a..b], i) <= DeadlineAt(s[a..b], j)
    {
      assert DeadlineAt(s, a + i) <= DeadlineAt(s, a + j);
    }
  }

  /** Where `t` goes in `s`: after every leading task due no later than `t`. */
  function InsertPosition(s: seq<Task>, t: Task): (k: nat)
    ensures k <= |s|
    ensures forall i :: 0 <= i < k ==> s[i].deadline <= t.deadline
    ensures k < |s| ==> s[k].deadline > t.deadline
  {
    if |s| == 0 || s[0].deadline > t.deadline then 0 else 1 + InsertPosition(s[1..], t)
  }

  /** One step of a stable insertion sort: `t` is placed before the first task due
      strictly later than it. */
  function InsertByDeadline(s: seq<Task>, t: Task): (r: seq<Task>)
    ensures |r| == |s| + 1
  {
    if |s| == 0 || s[0].deadline > t.deadline then [t] + s
    else [s[0]] + InsertByDeadline(s[1..], t)
  }

  /** Insertion splits the list at `InsertPosition` and changes nothing else. */
  lemma {:induction false} InsertShape(s: seq<Task>, t: Task)
    ensures InsertByDeadline(s, t) == s[..InsertPosition(s, t)] + [t] + s[InsertPosition(s, t)..]
    decreases |s|
  {
    if |s| > 0 && s[0].deadline <= t.deadline {
      InsertShape(s[1..], t);
      var k := InsertPosition(s[1..], t);
      assert s[..k + 1] == [s[0]] + s[1..][..k];
      assert s[k + 1..] == s[1..][k..];
    }
  }

  lemma {:induction false} InsertMultiset(s: seq<Task>, t: Task)
    ensures multiset(InsertByDeadline(s, t)) == multiset(s) + multiset{t}
    decreases |s|
  {
    if |s| > 0 && s[0].deadline <= t.deadline {
      InsertMultiset(s[1..], t);
      assert s == [s[0]] + s[1..];
    }
  }

  lemma {:induction false} InsertKeepsSorted(s: seq<Task>, t: Task)
    requires SortedByDeadline(s)
    ensures SortedByDeadline(InsertByDeadline(s, t))
    decreases |s|
  {
    var r := InsertByDeadline(s, t);
    if |s| > 0 && s[0].deadline <= t.deadline {
      var rest := InsertByDeadline(s[1..], t);
      SortedSlice(s, 1, |s|);
      assert s[1..|s|] == s[1..];
      InsertKeepsSorted(s[1..], t);
      InsertMultiset(s[1..], t);
      assert r == [s[0]] + rest;
      forall i, j | 0 <= i < j < |r|
        ensures DeadlineAt(r, i) <= DeadlineAt(r, j)
      {
        if i == 0 {
          var x := rest[j - 1];
          assert x in multiset(rest);
          if x != t {
            assert x in multiset(s[1..]);
            var k :| 0 <= k < |s[1..]| && s[1..][k] == x;
            assert DeadlineAt(s, 0) <= DeadlineAt(s, k + 1);
          }
        } else {
          assert DeadlineAt(rest, i - 1) <= DeadlineAt(rest, j - 1);
        }
      }
    } else {
      assert r == [t] + s;
      forall i, j | 0 <= i < j < |r|
        ensures DeadlineAt(r, i) <= DeadlineAt(r, j)
      {
        if i == 0 {
          assert DeadlineAt(s, 0) <= DeadlineAt(s, j - 1) || j == 1;
        } else {
          assert DeadlineAt(s, i - 1) <= DeadlineAt(s, j - 1);
        }
      }
    }
  }

  /** `sort((a, b) => deadline(a) - deadline(b))`: a stable sort by deadline (JavaScript's
      `Array.prototype.sort` is stable), here as insertion of each task in turn. */
  function SortByDeadline(s: seq<Task>): (r: seq<Task>)
    ensures |r| == |s|
    ensures multiset(r) == multiset(s)
    ensures SortedByDeadline(r)
    decreases |s|
  {
    if |s| == 0 then []
    else
      var init := SortByDeadline(s[..|s| - 1]);
      InsertKeepsSorted(init, s[|s| - 1]);
      InsertMultiset(init, s[|s| - 1]);
      assert s == s[..|s| - 1] + [s[|s| - 1]];
      InsertByDeadline(init, s[|s| - 1])
  }

  /** The tasks due exactly at `d`. */
  function DeadlineIs(d: Instant): Task -> bool {
    (t: Task) => t.deadline == d
  }

  /** `[t]` when `t` is due at `d`, otherwise nothing. */
  function TieOf(t: Task, d: Instant): seq<Task> {
    if t.deadline == d then [t] else []
  }

  lemma {:induction false} InsertKeepsTies(s: seq<Task>, t: Task, d: Instant)
    requires SortedByDeadline(s)
    ensures Filter(DeadlineIs(d), InsertByDeadline(s, t))
         == Filter(DeadlineIs(d), s) + TieOf(t, d)
    decreases |s|
  {
    if |s| == 0 || s[0].deadline > t.deadline {
      InsertTiesAtFront(s, t, d);
    } else {
      SortedSlice(s, 1, |s|);
      assert s[1..|s|] == s[1..];
      InsertKeepsTies(s[1..], t, d);
      InsertTiesStep(s, t, d);
    }
  }

  lemma InsertTiesAtFront(s: seq<Task>, t: Task, d: Instant)
    requires SortedByDeadline(s)
    requires |s| == 0 || s[0].deadline > t.deadline
    ensures Filter(DeadlineIs(d), InsertByDeadline(s, t))
         == Filter(DeadlineIs(d), s) + TieOf(t, d)
  {
    var p := DeadlineIs(d);
    var extra := TieOf(t, d);
    assert InsertByDeadline(s, t) == [t] + s;
    assert Filter(p, [t] + s) == extra + Filter(p, s) by {
      FilterCons(p, t, s);
    }
    assert t.deadline == d ==> Filter(p, s) == [] by {
      if t.deadline == d {
        LaterThanTie(s, t, d);
      }
    }
  }

  lemma InsertTiesStep(s: seq<Task>, t: Task, d: Instant)
    requires |s| > 0 && s[0].deadline <= t.deadline
    requires Filter(DeadlineIs(d), InsertByDeadline(s[1..], t))
          == Filter(DeadlineIs(d), s[1..]) + TieOf(t, d)
    ensures Filter(DeadlineIs(d), InsertByDeadline(s, t))
         == Filter(DeadlineIs(d), s) + TieOf(t, d)
  {
    var p, rest := DeadlineIs(d), InsertByDeadline(s[1..], t);
    calc {
      Filter(p, InsertByDeadline(s, t));
      { assert InsertByDeadline(s, t) == [s[0]] + rest; }
      Filter(p, [s[0]] + rest);
      { FilterConsExtends(p, s[0], rest, s[1..], TieOf(t, d)); }
      Filter(p, [s[0]] + s[1..]) + TieOf(t, d);
      { HeadAndTail(s); }
      Filter(p, s) + TieOf(t, d);
    }
  }

  /** No task of a sorted list that starts after `t` is due at `t`'s deadline. */
  lemma LaterThanTie(s: seq<Task>, t: Task, d: Instant)
    requires SortedByDeadline(s) && t.deadline == d
    requires |s| > 0 ==> s[0].deadline > t.deadline
    ensures Filter(DeadlineIs(d), s) == []
  {
    FilterKeepsNoneIff(DeadlineIs(d), s);
    forall x | x in s
      ensures x.deadline != d
    {
      var j :| 0 <= j < |s| && s[j] == x;
      assert j == 0 || DeadlineAt(s, 0) <= DeadlineAt(s, j);
    }
  }

  /** The sort is stable: among tasks with the same deadline, the original order is kept. */
  lemma {:induction false} SortKeepsTies(s: seq<Task>, d: Instant)
    ensures Filter(DeadlineIs(d), SortByDeadline(s)) == Filter(DeadlineIs(d), s)
    decreases |s|
  {
    if |s| > 0 {
      SortKeepsTies(s[..|s| - 1], d);
      SortTiesStep(s, d);
    }
  }

  lemma SortUnfold(s: seq<Task>)
    requires |s| > 0
    ensures SortByDeadline(s) == InsertByDeadline(SortByDeadline(s[..|s| - 1]), s[|s| - 1])
  {
  }

  lemma SortTiesStep(s: seq<Task>, d: Instant)
    requires |s| > 0
    requires Filter(DeadlineIs(d), SortByDeadline(s[..|s| - 1])) == Filter(DeadlineIs(d), s[..|s| - 1])
    ensures Filter(DeadlineIs(d), SortByDeadline(s)) == Filter(DeadlineIs(d), s)
  {
    var p, init, last := DeadlineIs(d), s[..|s| - 1], s[|s| - 1];
    var sorted := SortByDeadline(init);
    calc {
      Filter(p, SortByDeadline(s));
      { SortUnfold(s); }
      Filter(p, InsertByDeadline(sorted, last));
      { InsertKeepsTies(sorted, last, d); }
      Filter(p, sorted) + TieOf(last, d);
      Filter(p, init) + TieOf(last, d);
      { FilterAppend(p, init, [last]); assert Filter(p, [last]) == TieOf(last, d); }
      Filter(p, init + [last]);
      { InitAndLast(s); }
      Filter(p, s);
    }
  }

  /** Inserting a task due no earlier than everything in the list appends it. */
  lemma {:induction false} InsertAtEnd(s: seq<Task>, t: Task)
    requires forall i :: 0 <= i < |s| ==> s[i].deadline <= t.deadline
    ensures InsertByDeadline(s, t) == s + [t]
    decreases |s|
  {
    if |s| > 0 {
      InsertAtEnd(s[1..], t);
      assert s == [s[0]] + s[1..];
    }
  }

  /** Sorting a list that is already in deadline order changes nothing. */
  lemma {:induction false} SortOfSorted(s: seq<Task>)
    requires SortedByDeadline(s)
    ensures SortByDeadline(s) == s
    decreases |s|
  {
    if |s| > 0 {
      var init, last := s[..|s| - 1], s[|s| - 1];
      SortedSlice(s, 0, |s| - 1);
      SortOfSorted(init);
      forall i | 0 <= i < |init|
        ensures init[i].deadline <= last.deadline
      {
        assert DeadlineAt(s, i) <= DeadlineAt(s, |s| - 1);
      }
      InsertAtEnd(init, last);
      SortUnfold(s);
      assert s == init + [last];
    }
  }

  /** `handleAddTask`: the draft becomes an incomplete task with a clock-derived id, and
      the extended list is sorted by deadline. */
  function AddTask(tasks: seq<Task>, draft: TaskDraft, nowMs: nat): (r: seq<Task>)
    ensures |r| == |tasks| + 1
    ensures multiset(r) == multiset(tasks) + multiset{NewTask(draft, nowMs)}
    ensures NewTask(draft, nowMs) in r
    ensures SortedByDeadline(r)
  {
    var added := tasks + [NewTask(draft, nowMs)];
    var r := SortByDeadline(added);
    assert NewTask(draft, nowMs) in multiset(r);
    r
  }

  /** Adding keeps the relative order of the old tasks that share a deadline, and puts the
      new task after them. */
  lemma AddTaskKeepsTies(tasks: seq<Task>, draft: TaskDraft, nowMs: nat, d: Instant)
    ensures Filter(DeadlineIs(d), AddTask(tasks, draft, nowMs))
         == Filter(DeadlineIs(d), tasks) + (if draft.deadline == d then [NewTask(draft, nowMs)] else [])
  {
    var nt := NewTask(draft, nowMs);
    SortKeepsTies(tasks + [nt], d);
    FilterAppend(DeadlineIs(d), tasks, [nt]);
  }

  /** On a list already in deadline order, adding is a single insertion step. */
  lemma AddTaskIsInsert(tasks: seq<Task>, draft: TaskDraft, nowMs: nat)
    requires SortedByDeadline(tasks)
    ensures AddTask(tasks, draft, nowMs) == InsertByDeadline(tasks, NewTask(draft, nowMs))
  {
    var s := tasks + [NewTask(draft, nowMs)];
    SortUnfold(s);
    assert s[..|s| - 1] == tasks;
    SortOfSorted(tasks);
  }

  /** On a list already in deadline order, adding inserts the new task after every task
      due no later than it and before every task due later; the other tasks do not move. */
  lemma AddTaskToSorted(tasks: seq<Task>, draft: TaskDraft, nowMs: nat)
    requires SortedByDeadline(tasks)
    ensures var k := InsertPosition(tasks, NewTask(draft, nowMs));
      && AddTask(tasks, draft, nowMs) == tasks[..k] + [NewTask(draft, nowMs)] + tasks[k..]
      && (forall i :: 0 <= i < k ==> tasks[i].deadline <= draft.deadline)
      && (forall i :: k <= i < |tasks| ==> tasks[i].deadline > draft.deadline)
  {
    var nt := NewTask(draft, nowMs);
    var k := InsertPosition(tasks, nt);
    AddTaskIsInsert(tasks, draft, nowMs);
    InsertShape(tasks, nt);
    forall i | k <= i < |tasks|
      ensures tasks[i].deadline > draft.deadline
    {
      assert i == k || DeadlineAt(tasks, k) <= DeadlineAt(tasks, i);
    }
  }

  // ---------------------------------------------------------------------------------
  // Toggling completion

  function ToggleIfId(t: Task, taskId: string): Task {
    if t.id == taskId then t.(completed := !t.completed) else t
  }

  /** `toggleTaskCompletion(taskId)`: every task carrying `taskId` flips its completion flag. */
  function ToggleTaskCompletion(tasks: seq<Task>, taskId: string): (r: seq<Task>)
    ensures |r| == |tasks|
    ensures forall i :: 0 <= i < |r| ==> (r[i].completed != tasks[i].completed <==> tasks[i].id == taskId)
    ensures forall i :: 0 <= i < |r| ==> r[i].(completed := tasks[i].completed) == tasks[i]
  {
    Map(t => ToggleIfId(t, taskId), tasks)
  }

  /** Toggling the same id twice restores the list. */
  lemma ToggleTwice(tasks: seq<Task>, taskId: string)
    ensures ToggleTaskCompletion(ToggleTaskCompletion(tasks, taskId), taskId) == tasks
  {
    var r := ToggleTaskCompletion(ToggleTaskCompletion(tasks, taskId), taskId);
    assert forall i :: 0 <= i < |r| ==> r[i] == tasks[i];
  }

  /** Toggling an id no task carries changes nothing. */
  lemma ToggleUnknownId(tasks: seq<Task>, taskId: string)
    requires forall t :: t in tasks ==> t.id != taskId
    ensures ToggleTaskCompletion(tasks, taskId) == tasks
  {
    var r := ToggleTaskCompletion(tasks, taskId);
    assert forall i :: 0 <= i < |r| ==> r[i] == tasks[i];
  }

  // ---------------------------------------------------------------------------------
  // Forwarding weekend tasks

  /** The tasks the "forward" button moves: unfinished, and due on a Saturday or Sunday. */
  predicate ShouldForward(t: Task) {
    IsWeekendDay(t.deadline) && !t.completed
  }

  function ForwardTask(t: Task): Task {
    if ShouldForward(t) then t.(deadline := AddDays(t.deadline, 7)) else t
  }

  /** `forwardWeekendTasks`: every unfinished Saturday or Sunday task, in any week, moves
      seven days later; every other task is left as it is. */
  function ForwardWeekendTasks(tasks: seq<Task>): (r: seq<Task>)
    ensures |r| == |tasks|
    ensures forall i :: 0 <= i < |r| ==> r[i].(deadline := tasks[i].deadline) == tasks[i]
    ensures forall i :: 0 <= i < |r| ==>
      (r[i].deadline != tasks[i].deadline <==> ShouldForward(tasks[i]))
    ensures forall i :: 0 <= i < |r| && ShouldForward(tasks[i]) ==>
      DayOf(r[i].deadline) == DayOf(tasks[i].deadline) + 7
      && r[i].deadline - StartOfDay(r[i].deadline) == tasks[i].deadline - StartOfDay(tasks[i].deadline)
    ensures forall i :: 0 <= i < |r| ==> WeekdayOf(r[i].deadline) == WeekdayOf(tasks[i].deadline)
  {
    forall t: Task {
      AddWeekKeepsWeekday(t.deadline);
    }
    Map(ForwardTask, tasks)
  }

  /** A forwarded task is again an unfinished weekend task, one week on; a task that was
      not forwarded stays put, so completed tasks never move. */
  lemma ForwardedTaskStaysForwardable(t: Task)
    ensures ShouldForward(ForwardTask(t)) == ShouldForward(t)
    ensures t.completed ==> ForwardTask(t) == t
    ensures ShouldForward(t) ==> WeekStartDay(ForwardTask(t).deadline) == WeekStartDay(t.deadline) + 7
  {
    AddWeekKeepsWeekday(t.deadline);
    AddWeekNextWeek(t.deadline);
  }

  // ---------------------------------------------------------------------------------
  // Date buckets

  /** Tasks whose deadline satisfies `q`. */
  function DueWhen(q: Instant -> bool): Task -> bool {
    (t: Task) => q(t.deadline)
  }

  /** `todayTasks`: the tasks due on the day of `now`. */
  function TodayTasks(tasks: seq<Task>, now: Instant): (r: seq<Task>)
    ensures IsSubsequence(r, tasks)
    ensures forall t :: t in r <==> t in tasks && DayOf(t.deadline) == DayOf(now)
    ensures forall t :: multiset(r)[t] == if DayOf(t.deadline) == DayOf(now) then multiset(tasks)[t] else 0
  {
    FilterSpec(DueWhen(d => IsToday(d, now)), tasks);
    Filter(DueWhen(d => IsToday(d, now)), tasks)
  }

  /** `weekendTasks`: tasks in the Sunday-to-Saturday week of `now` that fall on a
      Saturday or a Sunday. */
  function WeekendTasks(tasks: seq<Task>, now: Instant): (r: seq<Task>)
    ensures IsSubsequence(r, tasks)
    ensures forall t :: t in r <==>
      (t in tasks && IsWeekendDay(t.deadline) && WeekStartDay(t.deadline) == WeekStartDay(now))
    ensures forall t :: multiset(r)[t] ==
                        if IsWeekendDay(t.deadline) && WeekStartDay(t.deadline) == WeekStartDay(now) then multiset(tasks)[t] else 0
  {
    forall d: Instant {
      WithinWeekIff(d, now);
    }
    var p := DueWhen(d => IsWithinInterval(d, WeekOf(now)) && (IsSaturday(d) || IsSunday(d)));
    FilterSpec(p, tasks);
    Filter(p, tasks)
  }

  /** `selectedDayTasks`: the tasks due on the selected day; nothing when no day is selected. */
  function SelectedDayTasks(tasks: seq<Task>, selected: Option<Instant>): (r: seq<Task>)
    ensures IsSubsequence(r, tasks)
    ensures selected.None? ==> r == []
    ensures selected.Some? ==>
      forall t :: t in r <==> t in tasks && DayOf(t.deadline) == DayOf(selected.value)
    ensures selected.Some? ==> forall t :: multiset(r)[t] ==
                                 if DayOf(t.deadline) == DayOf(selected.value) then multiset(tasks)[t] else 0
  {
    match selected
    case None => []
    case Some(day) =>
      FilterSpec(DueWhen(d => IsSameDay(d, day)), tasks);
      Filter(DueWhen(d => IsSameDay(d, day)), tasks)
  }

  /** `monthlyTasks`: the tasks due in the calendar month of `now`. */
  function MonthlyTasks(tasks: seq<Task>, now: Instant): (r: seq<Task>)
    ensures IsSubsequence(r, tasks)
    ensures forall t :: t in r <==> t in tasks && MonthOf(t.deadline) == MonthOf(now)
    ensures forall t :: multiset(r)[t] == if MonthOf(t.deadline) == MonthOf(now) then multiset(tasks)[t] else 0
  {
    FilterSpec(DueWhen(d => IsSameMonth(d, now)), tasks);
    Filter(DueWhen(d => IsSameMonth(d, now)), tasks)
  }

  /** The list behind the weekly progress: tasks in the Sunday-to-Saturday week of `now`. */
  function WeeklyTasks(tasks: seq<Task>, now: Instant): (r: seq<Task>)
    ensures IsSubsequence(r, tasks)
    ensures forall t :: t in r <==> t in tasks && WeekStartDay(t.deadline) == WeekStartDay(now)
    ensures forall t :: multiset(r)[t] == if WeekStartDay(t.deadline) == WeekStartDay(now) then multiset(tasks)[t] else 0
  {
    forall d: Instant {
      WithinWeekIff(d, now);
    }
    FilterSpec(DueWhen(d => IsWithinInterval(d, WeekOf(now))), tasks);
    Filter(DueWhen(d => IsWithinInterval(d, WeekOf(now))), tasks)
  }

  /** The "today" and "weekend" buckets are parts of the weekly one. */
  lemma BucketsNestInWeek(tasks: seq<Task>, now: Instant)
    ensures forall t :: t in TodayTasks(tasks, now) ==> t in WeeklyTasks(tasks, now)
    ensures forall t :: t in WeekendTasks(tasks, now) ==> t in WeeklyTasks(tasks, now)
  {
  }

  /** Toggling distributes over concatenation. */
  lemma {:induction false} ToggleAppend(a: seq<Task>, b: seq<Task>, taskId: string)
    ensures ToggleTaskCompletion(a + b, taskId)
         == ToggleTaskCompletion(a, taskId) + ToggleTaskCompletion(b, taskId)
  {
    var l, r := ToggleTaskCompletion(a + b, taskId), ToggleTaskCompletion(a, taskId) + ToggleTaskCompletion(b, taskId);
    assert |l| == |r|;
    forall i | 0 <= i < |l| ensures l[i] == r[i] {
      if i < |a| {
        assert (a + b)[i] == a[i];
      } else {
        assert (a + b)[i] == b[i - |a|];
      }
    }
  }

  /** Toggling through a bucket's card is the same as toggling in the whole list and
      taking the bucket again. */
  lemma {:induction false} ToggleCommutesWithBucket(tasks: seq<Task>, taskId: string, q: Instant -> bool)
    ensures Filter(DueWhen(q), ToggleTaskCompletion(tasks, taskId))
         == ToggleTaskCompletion(Filter(DueWhen(q), tasks), taskId)
    decreases |tasks|
  {
    if |tasks| > 0 {
      var x, rest := tasks[0], tasks[1..];
      var head := if q(x.deadline) then [x] else [];
      assert tasks == [x] + rest;
      ToggleCommutesWithBucket(rest, taskId, q);
      ToggleAppend([x], rest, taskId);
      FilterCons(DueWhen(q), ToggleIfId(x, taskId), ToggleTaskCompletion(rest, taskId));
      FilterCons(DueWhen(q), x, rest);
      ToggleAppend(head, Filter(DueWhen(q), rest), taskId);
    }
  }

  // ---------------------------------------------------------------------------------
  // Progress

  datatype Progress = Progress(progress: real, completedCount: nat, totalCount: nat)

  function IsCompleted(t: Task): bool {
    t.completed
  }

  /** The percentage `c / n * 100` of a part `c` of a whole `n` lies in [0, 100] and hits
      either end exactly when the part is empty or whole. */
  lemma ShareBounds(c: nat, n: nat)
    requires 0 < n && c <= n
    ensures 0.0 <= (c as real / n as real) * 100.0 <= 100.0
    ensures (c as real / n as real) * 100.0 == 100.0 <==> c == n
    ensures (c as real / n as real) * 100.0 == 0.0 <==> c == 0
  {
    var share := c as real / n as real;
    assert share * n as real == c as real;
    if share == 1.0 { assert c as real == n as real; }
    if share == 0.0 { assert c as real == 0.0; }
  }

  /** The completed tasks the filter keeps are as many as the positions holding one. */
  lemma CompletedCount(tasks: seq<Task>)
    ensures |Filter(IsCompleted, tasks)| == |set i | 0 <= i < |tasks| && tasks[i].completed|
  {
    FilterCountsIndices(IsCompleted, tasks);
    assert PositionsWhere(IsCompleted, tasks) == set i | 0 <= i < |tasks| && tasks[i].completed;
  }

  /** `calculateProgress`: the share of completed tasks as a percentage, with the counts;
      all zeros for an empty list. */
  function CalculateProgress(tasks: seq<Task>): (p: Progress)
    ensures |tasks| == 0 ==> p == Progress(0.0, 0, 0)
    ensures p.totalCount == |tasks| && p.completedCount <= p.totalCount
    ensures p.completedCount == |set i | 0 <= i < |tasks| && tasks[i].completed|
    ensures |tasks| > 0 ==> p.progress == (p.completedCount as real / p.totalCount as real) * 100.0
    ensures 0.0 <= p.progress <= 100.0
    ensures p.completedCount == p.totalCount <==> forall t :: t in tasks ==> t.completed
    ensures p.completedCount == 0 <==> forall t :: t in tasks ==> !t.completed
    ensures |tasks| > 0 ==> (p.progress == 100.0 <==> forall t :: t in tasks ==> t.completed)
    ensures p.progress == 0.0 <==> forall t :: t in tasks ==> !t.completed
  {
    CompletedCount(tasks);
    if |tasks| == 0 then Progress(0.0, 0, 0)
    else
      var c := |Filter(IsCompleted, tasks)|;
      var n := |tasks|;
      FilterKeepsAllIff(IsCompleted, tasks);
      FilterKeepsNoneIff(IsCompleted, tasks);
      ShareBounds(c, n);
      Progress((c as real / n as real) * 100.0, c, n)
  }

  /** Forwarding moves deadlines only, so the progress over the whole list is unchanged. */
  lemma {:induction false} ForwardKeepsCompletedCount(tasks: seq<Task>)
    ensures |Filter(IsCompleted, ForwardWeekendTasks(tasks))| == |Filter(IsCompleted, tasks)|
    decreases |tasks|
  {
    if |tasks| > 0 {
      ForwardKeepsCompletedCount(tasks[1..]);
      assert ForwardWeekendTasks(tasks)[1..] == ForwardWeekendTasks(tasks[1..]);
    }
  }

  lemma ForwardKeepsProgress(tasks: seq<Task>)
    ensures CalculateProgress(ForwardWeekendTasks(tasks)) == CalculateProgress(tasks)
  {
    ForwardKeepsCompletedCount(tasks);
  }
}

=== FILE: edit_dialog.dfy ===
/** `EditTaskDialog`: the form is opened with values taken from a task, checked against
    the task schema on submit, and the checked values are merged over the task. URL
    syntax is left to a predicate passed in. */
module EditTaskDialog {
  import opened Types
  import opened Text
  import opened TimeFormat

  /** What the number input holds: nothing, the number the form was opened with, or the
      text the user typed into it. */
  datatype DurationInput = NoDuration | NumberInput(n: int) | TypedInput(text: string)

  /** The form's values; `None` is a field whose value is `undefined`. */
  datatype FormValues = FormValues(
    taskName: string,
    topic: Option<string>,
    duration: DurationInput,
    startTime: Option<string>,
    link: Option<string>)

  /** The values the schema hands to the submit handler. */
  datatype FormData = FormData(
    taskName: string,
    topic: Option<string>,
    duration: Option<int>,
    startTime: Option<string>,
    link: Option<string>)

  /** The fields that carry a check. */
  datatype Field = TaskNameField | DurationField | StartTimeField | LinkField

  type UrlCheck = string -> bool

  /** The task name needs at least one character; it is not trimmed. */
  predicate NameOk(name: string) {
    |name| >= 1
  }

  /** The duration is coerced with `Number` and must then be a positive integer; an absent
      duration is allowed. */
  predicate DurationOk(d: DurationInput) {
    match d
    case NoDuration => true
    case NumberInput(n) => n > 0
    case TypedInput(text) => ToNumber(text).Some? && ToNumber(text).value > 0
  }

  function DurationOf(d: DurationInput): (r: Option<int>)
    requires DurationOk(d)
    ensures r.Some? ==> r.value > 0
    ensures r.None? <==> d.NoDuration?
    ensures d.NumberInput? ==> r == Some(d.n)
    ensures d.TypedInput? ==> r == ToNumber(d.text)
  {
    match d
    case NoDuration => None
    case NumberInput(n) => Some(n)
    case TypedInput(text) => ToNumber(text)
  }

  /** The start time may be absent or must match the `"HH:MM"` pattern; when
      `allowEmpty` holds the empty string is accepted as well. */
  predicate StartTimeOk(s: Option<string>, allowEmpty: bool) {
    s.None? || (allowEmpty && s.value == "") || MatchesTimePattern(s.value)
  }

  /** The link may be absent, empty, or a URL. */
  predicate LinkOk(l: Option<string>, isUrl: UrlCheck) {
    l.None? || l.value == "" || isUrl(l.value)
  }

  /** The fields that fail their check. */
  function Errors(form: FormValues, isUrl: UrlCheck, allowEmptyTime: bool): set<Field> {
    (if NameOk(form.taskName) then {} else {TaskNameField})
    + (if DurationOk(form.duration) then {} else {DurationField})
    + (if StartTimeOk(form.startTime, allowEmptyTime) then {} else {StartTimeField})
    + (if LinkOk(form.link, isUrl) then {} else {LinkField})
  }

  /** Schema validation: the checked values, or every field that failed. */
  function ValidateWith(form: FormValues, isUrl: UrlCheck, allowEmptyTime: bool): (r: Result<FormData, set<Field>>)
    ensures r.Ok? <==> NameOk(form.taskName) && DurationOk(form.duration)
                       && StartTimeOk(form.startTime, allowEmptyTime) && LinkOk(form.link, isUrl)
    ensures r.Err? ==> r.error != {}
    ensures r.Err? ==> (TaskNameField in r.error <==> |form.taskName| == 0)
    ensures r.Err? ==> (DurationField in r.error <==> !DurationOk(form.duration))
    ensures r.Err? ==> (StartTimeField in r.error <==> !StartTimeOk(form.startTime, allowEmptyTime))
    ensures r.Err? ==> (LinkField in r.error <==> !LinkOk(form.link, isUrl))
    ensures r.Ok? ==> r.value.taskName == form.taskName && r.value.topic == form.topic
                      && r.value.startTime == form.startTime && r.value.link == form.link
    ensures r.Ok? ==> (r.value.duration.None? <==> form.duration.NoDuration?)
    ensures r.Ok? && r.value.duration.Some? ==> r.value.duration.value > 0
    ensures r.Ok? && form.duration.NumberInput? ==> r.value.duration == Some(form.duration.n)
    ensures r.Ok? && form.duration.TypedInput? ==> r.value.duration == ToNumber(form.duration.text)
  {
    var errors := Errors(form, isUrl, allowEmptyTime);
    if errors == {} then
      Ok(FormData(form.taskName, form.topic, DurationOf(form.duration), form.startTime, form.link))
    else
      Err(errors)
  }

  /** `taskSchema` as written: `.optional()` exempts only an absent start time, so an
      empty one must match the pattern and fails. */
  function ValidateAsWritten(form: FormValues, isUrl: UrlCheck): (r: Result<FormData, set<Field>>)
    ensures r.Ok? <==> |form.taskName| >= 1 && DurationOk(form.duration) && LinkOk(form.link, isUrl)
                       && (form.startTime.None? || MatchesTimePattern(form.startTime.value))
    ensures form.startTime == Some("") ==> r.Err? && StartTimeField in r.error
  {
    assert !MatchesTimePattern("");
    ValidateWith(form, isUrl, false)
  }

  /** The schema with an empty start time accepted, as the link field already accepts an
      empty link. */
  function Validate(form: FormValues, isUrl: UrlCheck): (r: Result<FormData, set<Field>>)
    ensures r.Ok? <==> |form.taskName| >= 1 && DurationOk(form.duration) && LinkOk(form.link, isUrl)
                       && (form.startTime.None? || form.startTime.value == "" || MatchesTimePattern(form.startTime.value))
    ensures form.startTime == Some("") ==> (r.Ok? <==> ValidateAsWritten(form.(startTime := None), isUrl).Ok?)
  {
    ValidateWith(form, isUrl, true)
  }

  /** The two validators differ only on an empty start time. */
  lemma ValidatorsAgree(form: FormValues, isUrl: UrlCheck)
    ensures form.startTime != Some("") ==> ValidateAsWritten(form, isUrl) == Validate(form, isUrl)
  {
    if form.startTime != Some("") {
      assert Errors(form, isUrl, false) == Errors(form, isUrl, true);
    }
  }

  /** The values the dialog opens with: absent topic, start time and link become `""`,
      the name and the duration are copied. */
  function Defaults(task: Task): (form: FormValues)
    ensures form.taskName == task.taskName
    ensures form.topic.Some? && form.startTime.Some? && form.link.Some?
    ensures form.topic.value == task.topic.GetOr("") && form.startTime.value == task.startTime.GetOr("")
    ensures form.link.value == task.link.GetOr("")
    ensures form.duration.NoDuration? <==> task.duration.None?
    ensures task.duration.Some? ==> form.duration == NumberInput(task.duration.value)
  {
    FormValues(
      task.taskName,
      Some(task.topic.GetOr("")),
      if task.duration.Some? then NumberInput(task.duration.value) else NoDuration,
      Some(task.startTime.GetOr("")),
      Some(task.link.GetOr("")))
  }

  /** `onSubmit`: the checked values are spread over the task. */
  function Save(task: Task, data: FormData): (r: Task)
    ensures r.id == task.id && r.deadline == task.deadline && r.completed == task.completed
    ensures r.taskName == data.taskName && r.topic == data.topic && r.duration == data.duration
    ensures r.startTime == data.startTime && r.link == data.link
  {
    task.(taskName := data.taskName, topic := data.topic, duration := data.duration,
          startTime := data.startTime, link := data.link)
  }

  /** `handleSubmit` with the schema as written, then `onSubmit`: the merged task, or the
      fields to correct. */
  function SubmitEdit(task: Task, form: FormValues, isUrl: UrlCheck): (r: Result<Task, set<Field>>)
    ensures r.Ok? <==> ValidateAsWritten(form, isUrl).Ok?
    ensures r.Err? ==> r.error == ValidateAsWritten(form, isUrl).error
    ensures form.startTime == Some("") ==> r.Err? && StartTimeField in r.error
    ensures r.Ok? ==> r.value.id == task.id && r.value.deadline == task.deadline
                      && r.value.completed == task.completed
    ensures r.Ok? ==> r.value.taskName == form.taskName && r.value.topic == form.topic
                      && r.value.startTime == form.startTime && r.value.link == form.link
    ensures r.Ok? ==> (r.value.duration.None? <==> form.duration.NoDuration?)
    ensures r.Ok? && form.duration.NumberInput? ==> r.value.duration == Some(form.duration.n)
    ensures r.Ok? && form.duration.TypedInput? ==> r.value.duration == ToNumber(form.duration.text)
  {
    match ValidateAsWritten(form, isUrl)
    case Ok(data) => Ok(Save(task, data))
    case Err(errors) => Err(errors)
  }

  /** The submit with the corrected schema: it agrees with the submit as written on every
      form whose start time is not empty, and saves an empty one when all else passes. */
  function SubmitEditCorrected(task: Task, form: FormValues, isUrl: UrlCheck): (r: Result<Task, set<Field>>)
    ensures r.Ok? <==> Validate(form, isUrl).Ok?
    ensures r.Err? ==> r.error == Validate(form, isUrl).error
    ensures form.startTime != Some("") ==> r == SubmitEdit(task, form, isUrl)
    ensures r.Ok? ==> r.value.id == task.id && r.value.deadline == task.deadline
                      && r.value.completed == task.completed
    ensures r.Ok? ==> r.value.taskName == form.taskName && r.value.topic == form.topic
                      && r.value.startTime == form.startTime && r.value.link == form.link
    ensures r.Ok? ==> (r.value.duration.None? <==> form.duration.NoDuration?)
    ensures r.Ok? && form.duration.NumberInput? ==> r.value.duration == Some(form.duration.n)
    ensures r.Ok? && form.duration.TypedInput? ==> r.value.duration == ToNumber(form.duration.text)
  {
    ValidatorsAgree(form, isUrl);
    match Validate(form, isUrl)
    case Ok(data) => Ok(Save(task, data))
    case Err(errors) => Err(errors)
  }

  /** A task every field of which the schema admits. */
  predicate Editable(task: Task, isUrl: UrlCheck) {
    |task.taskName| >= 1
    && (task.duration.None? || task.duration.value > 0)
    && (task.startTime.None? || task.startTime.value == "" || MatchesTimePattern(task.startTime.value))
    && (task.link.None? || task.link.value == "" || isUrl(task.link.value))
  }

  /** The task with its absent text fields written as `""`, as the form shows them. */
  function FillBlank(task: Task): Task {
    task.(topic := Some(task.topic.GetOr("")), startTime := Some(task.startTime.GetOr("")),
          link := Some(task.link.GetOr("")))
  }

  /** Opening the dialog and saving at once succeeds exactly for an editable task, and then
      changes nothing but writing absent text fields as `""`. */
  lemma UntouchedSaveRoundTrip(task: Task, isUrl: UrlCheck)
    ensures SubmitEditCorrected(task, Defaults(task), isUrl).Ok? <==> Editable(task, isUrl)
    ensures Editable(task, isUrl) ==> SubmitEditCorrected(task, Defaults(task), isUrl) == Ok(FillBlank(task))
  {
    var form := Defaults(task);
    if task.duration.Some? {
      assert form.duration == NumberInput(task.duration.value);
    }
  }

  /** As written, a task without a start time cannot be saved untouched: the form opens
      with `""`, which the start-time pattern rejects. */
  lemma AsWrittenRejectsUnscheduled(task: Task, isUrl: UrlCheck)
    requires task.startTime.GetOr("") == ""
    ensures ValidateAsWritten(Defaults(task), isUrl).Err?
    ensures StartTimeField in ValidateAsWritten(Defaults(task), isUrl).error
    ensures SubmitEdit(task, Defaults(task), isUrl).Err?
  {
  }
}

=== FILE: import_action.dfy ===
/** The server action `handleImport`: it checks the request, turns pasted text into a
    `data:` URI, hands the URI to the plan extractor and shapes the reply. The extractor
    (a generative-model call) is a parameter that either returns drafts or fails. */
module ImportAction {
  import opened Types
  import opened Seqs
  import opened Text
  import Base64
  import Utf8

  /** The request's source: a file already read as a data URI, pasted text, or a value
      that has neither shape (a wrong tag, a missing or non-string field). */
  datatype ImportSource = FileSource(dataUri: string) | TextSource(content: string) | Unrecognised

  const DataScheme: string := "data:"
  const TextUriPrefix: string := "data:text/plain;base64,"
  const MinTextLength: nat := 10

  const InvalidInputError: string := "Invalid input."
  const ParseFailedError: string := "Failed to parse the study plan. Please check the format and try again."

  /** The request schema: a file URI must use the `data:` scheme, and pasted text must be
      at least ten UTF-16 code units long. */
  function ValidSource(src: ImportSource): (ok: bool)
    ensures src.Unrecognised? ==> !ok
    ensures src.FileSource? ==> (ok <==> |src.dataUri| >= |DataScheme| && src.dataUri[..|DataScheme|] == DataScheme)
    ensures src.TextSource? && |src.content| >= MinTextLength ==> ok
    ensures src.TextSource? && 2 * |src.content| < MinTextLength ==> !ok
    ensures src.TextSource? ==>
              (ok <==> |src.content| + |Filter(Utf8.IsSupplementary, src.content)| >= MinTextLength)
    ensures src.TextSource? && (forall k :: 0 <= k < |src.content| ==> !Utf8.IsSupplementary(src.content[k]))
            ==> (ok <==> |src.content| >= MinTextLength)
  {
    match src
    case FileSource(uri) => StartsWith(uri, DataScheme)
    case TextSource(content) => Utf8.Utf16Length(content) >= MinTextLength
    case Unrecognised => false
  }

  /** Pasted text as a plain-text data URI: UTF-8 bytes, then base 64. */
  function TextDataUri(content: string): (uri: string)
    ensures StartsWith(uri, TextUriPrefix) && StartsWith(uri, DataScheme)
  {
    var uri := TextUriPrefix + Base64.Encode(Utf8.Encode(content));
    assert uri[..|TextUriPrefix|] == TextUriPrefix;
    assert uri[..|DataScheme|] == DataScheme;
    uri
  }

  /** The URI handed to the extractor: always a `data:` URI, the file's own one verbatim,
      or one from which the pasted text can be read back. */
  function DocumentUri(src: ImportSource): (uri: string)
    requires ValidSource(src)
    ensures StartsWith(uri, DataScheme)
    ensures src.FileSource? ==> uri == src.dataUri
    ensures src.TextSource? ==> && StartsWith(uri, TextUriPrefix)
                                && var bytes := Base64.Decode(uri[|TextUriPrefix|..]);
                                && bytes.Some? && Utf8.Decode(bytes.value) == Some(src.content)
  {
    match src
    case FileSource(uri) => uri
    case TextSource(content) =>
      TextDataUriDecodes(content);
      TextDataUri(content)
  }

  /** The reply: on failure there are no tasks and an error message. */
  datatype ImportResult = ImportResult(success: bool, tasks: seq<TaskDraft>, error: Option<string>)

  /** A reply of the shape the client relies on: it carries an error exactly when it
      reports failure, and a failed reply carries no tasks. */
  predicate WellShaped(r: ImportResult) {
    (r.success <==> r.error.None?) && (!r.success ==> r.tasks == [])
  }

  /** The plan extractor: the drafts it read from the document, or `None` when it threw. */
  type Extractor = string -> Option<seq<TaskDraft>>

  /** `handleImport`. */
  function HandleImport(src: ImportSource, extract: Extractor): (r: ImportResult)
    ensures WellShaped(r)
    ensures !ValidSource(src) ==> r.error == Some(InvalidInputError)
    ensures r.success ==> ValidSource(src) && extract(DocumentUri(src)) == Some(r.tasks)
    ensures ValidSource(src) && !r.success ==> extract(DocumentUri(src)).None? && r.error == Some(ParseFailedError)
  {
    if !ValidSource(src) then ImportResult(false, [], Some(InvalidInputError))
    else match extract(DocumentUri(src))
      case Some(tasks) => ImportResult(true, tasks, None)
      case None => ImportResult(false, [], Some(ParseFailedError))
  }

  /** An invalid request is answered without consulting the extractor at all. */
  lemma InvalidIgnoresExtractor(src: ImportSource, e1: Extractor, e2: Extractor)
    requires !ValidSource(src)
    ensures HandleImport(src, e1) == HandleImport(src, e2)
  {
  }

  /** A file source is forwarded verbatim: the reply depends only on what the extractor
      makes of the file's own URI. */
  lemma FileUriForwarded(uri: string, e1: Extractor, e2: Extractor)
    requires e1(uri) == e2(uri)
    ensures HandleImport(FileSource(uri), e1) == HandleImport(FileSource(uri), e2)
  {
  }

  /** Pasted text is handled exactly like a file whose data URI is the text's encoding. */
  lemma TextActsAsDataUri(content: string, e: Extractor)
    requires ValidSource(TextSource(content))
    ensures ValidSource(FileSource(TextDataUri(content)))
    ensures HandleImport(TextSource(content), e) == HandleImport(FileSource(TextDataUri(content)), e)
  {
  }

  /** The text URI loses nothing: after the prefix, base 64 and then UTF-8 decoding give
      back the pasted text. */
  lemma TextDataUriDecodes(content: string)
    ensures var payload := TextDataUri(content)[|TextUriPrefix|..];
      && Base64.Decode(payload) == Some(Utf8.Encode(content))
      && Utf8.Decode(Utf8.Encode(content)) == Some(content)
  {
    var bytes := Utf8.Encode(content);
    assert TextDataUri(content)[|TextUriPrefix|..] == Base64.Encode(bytes);
    Base64.RoundTrip(bytes);
    Utf8.RoundTrip(content);
  }

  /** Distinct texts are sent as distinct URIs. */
  lemma TextDataUriInjective(a: string, b: string)
    requires TextDataUri(a) == TextDataUri(b)
    ensures a == b
  {
    TextDataUriDecodes(a);
    TextDataUriDecodes(b);
  }
}

=== FILE: scheduler.dfy ===
/** The day view of `DailyScheduler`: twenty-four hour rows of sixty pixels each, and one
    block per scheduled task whose top edge is its start time in minutes (one pixel per
    minute) and whose height is its duration. */
module DailyScheduler {
  import opened Types
  import opened Seqs
  import opened Text
  import opened TimeFormat

  const MinutesPerHour: nat := 60
  const HoursPerDay: nat := 24

  /** The hour rows of the day column, `0` through `23`. */
  function HourSlots(): (hours: seq<nat>)
    ensures |hours| == HoursPerDay
    ensures forall i :: 0 <= i < |hours| ==> hours[i] == i
  {
    seq(HoursPerDay, i requires 0 <= i => i)
  }

  /** Where a block sits: `top` is `None` when the arithmetic gives NaN. */
  datatype Position = Position(top: Option<int>, height: int)

  /** A task is placed only when it has a non-empty start time and a non-zero duration
      (the falsy checks of the component). */
  function IsScheduled(t: Task): (placed: bool)
    ensures placed ==> t.startTime.Some? && t.duration.Some?
    ensures t.startTime == Some("") || t.duration == Some(0) ==> !placed
    ensures t.startTime.Some? && MatchesTimePattern(t.startTime.value) && t.duration.Some? && t.duration.value > 0
            ==> placed
  {
    assert !MatchesTimePattern("");
    t.startTime.Some? && t.startTime.value != "" && t.duration.Some? && t.duration.value != 0
  }

  /** The two leading fields as numbers; a field that is missing or not a number is NaN,
      and NaN spreads through the sum. */
  function FieldsMinute(parts: seq<string>): (top: Option<int>)
    requires |parts| >= 1
  {
    var hour := ToNumber(parts[0]);
    var minute := if |parts| > 1 then ToNumber(parts[1]) else None;
    if hour.Some? && minute.Some? then Some(hour.value * MinutesPerHour + minute.value) else None
  }

  /** The minute offset of a start time, read from its colon-separated fields. */
  function StartMinute(startTime: string): (top: Option<int>) {
    FieldsMinute(Split(startTime, ':'))
  }

  /** `getTaskPosition`. */
  function TaskPosition(t: Task): (p: Position)
    ensures !IsScheduled(t) ==> p == Position(Some(0), 0)
    ensures IsScheduled(t) ==> p.height == t.duration.value && p.top == StartMinute(t.startTime.value)
  {
    if !IsScheduled(t) then Position(Some(0), 0)
    else Position(StartMinute(t.startTime.value), t.duration.value)
  }

  /** A start time written `"HH:MM"` puts the block's top edge `HH * 60 + MM` pixels down,
      inside the row of hour `HH`, at `MM` pixels into that row. */
  lemma StartMinuteOfTimeText(h: nat, m: nat)
    requires h < 24 && m < 60
    ensures StartMinute(TimeText(h, m)) == Some(h * MinutesPerHour + m)
    ensures var top := h * MinutesPerHour + m;
      && 0 <= top < HoursPerDay * MinutesPerHour
      && HourSlots()[top / MinutesPerHour] == h
      && top % MinutesPerHour == m
  {
    ReadTimeText(h, m);
    MinuteInRow(h, m);
  }

  lemma ReadTimeText(h: nat, m: nat)
    requires h < 24 && m < 60
    ensures StartMinute(TimeText(h, m)) == Some(h * MinutesPerHour + m)
  {
    SplitTimeText(h, m);
    ReadTwoDigits(h);
    ReadTwoDigits(m);
    ReadFields([TwoDigits(h), TwoDigits(m)], h, m);
  }

  lemma ReadFields(parts: seq<string>, hour: int, minute: int)
    requires |parts| == 2
    requires ToNumber(parts[0]) == Some(hour) && ToNumber(parts[1]) == Some(minute)
    ensures FieldsMinute(parts) == Some(hour * MinutesPerHour + minute)
  {
  }

  lemma MinuteInRow(h: nat, m: nat)
    requires h < 24 && m < 60
    ensures var top := h * MinutesPerHour + m;
      && 0 <= top < HoursPerDay * MinutesPerHour
      && top / MinutesPerHour == h && top % MinutesPerHour == m
  {
  }

  /** Every start time the edit form accepts places the block within the day column, at
      `HH * 60 + MM` for the start time `"HH:MM"`. */
  lemma AcceptedStartTimeFitsDay(t: Task)
    requires IsScheduled(t) && MatchesTimePattern(t.startTime.value)
    ensures TaskPosition(t).top.Some?
    ensures var s := t.startTime.value;
      TaskPosition(t).top.value
        == (10 * DigitValue(s[0]) + DigitValue(s[1])) * MinutesPerHour + 10 * DigitValue(s[3]) + DigitValue(s[4])
    ensures 0 <= TaskPosition(t).top.value < HoursPerDay * MinutesPerHour
    ensures TaskPosition(t).height == t.duration.value
  {
    TimePatternIff(t.startTime.value);
    var h: nat, m: nat :| h < 24 && m < 60 && t.startTime.value == TimeText(h, m);
    StartMinuteOfTimeText(h, m);
    TimeTextDigits(h, m);
  }

  /** The digits of `TimeText(h, m)` spell out `h` and `m`. */
  lemma TimeTextDigits(h: nat, m: nat)
    requires h < 24 && m < 60
    ensures var s := TimeText(h, m);
      && 10 * DigitValue(s[0]) + DigitValue(s[1]) == h
      && 10 * DigitValue(s[3]) + DigitValue(s[4]) == m
  {
    var s := TimeText(h, m);
    assert s[0] == DigitChar(h / 10) && s[1] == DigitChar(h % 10);
    assert s[3] == DigitChar(m / 10) && s[4] == DigitChar(m % 10);
  }

  /** A start time without a colon has no minute field, so the offset is NaN. */
  lemma NoColonIsNaN(t: Task)
    requires IsScheduled(t) && ':' !in t.startTime.value
    ensures TaskPosition(t).top == None
  {
    SplitNoSeparator(t.startTime.value, ':');
  }

  /** `Number` reads a leading minus sign, so a start time such as `"-01:30"` puts the
      block above the first hour row. */
  lemma SignedHourAboveDay(h: nat, m: nat)
    requires 0 < h < 100 && m < 60
    ensures StartMinute("-" + TwoDigits(h) + ":" + TwoDigits(m)) == Some(m - h * MinutesPerHour)
    ensures m - h * MinutesPerHour < 0
  {
    var hour, minute := "-" + TwoDigits(h), TwoDigits(m);
    ReadSignedTwoDigits(h);
    ReadTwoDigits(m);
    ReadSignedFields(hour, minute, h, m);
  }

  lemma ReadSignedFields(hour: string, minute: string, hv: nat, mv: int)
    requires |hour| == 3 && |minute| == 2 && AllDigits(hour[1..]) && AllDigits(minute)
    requires hour[0] == '-'
    requires ToNumber(hour) == Some(0 - hv) && ToNumber(minute) == Some(mv)
    ensures StartMinute(hour + ":" + minute) == Some(mv - hv * MinutesPerHour)
  {
    SplitSignedFields(hour, minute);
    ReadFields([hour, minute], 0 - hv, mv);
    assert (0 - hv) * MinutesPerHour == 0 - hv * MinutesPerHour;
  }

  lemma SplitSignedFields(hour: string, minute: string)
    requires |hour| == 3 && |minute| == 2 && AllDigits(hour[1..]) && AllDigits(minute)
    requires hour[0] == '-'
    ensures Split(hour + ":" + minute, ':') == [hour, minute]
  {
    assert hour + ":" + minute == hour + [':'] + minute;
    assert ':' !in hour && ':' !in minute;
    SplitAtFirst(hour, minute, ':');
    SplitNoSeparator(minute, ':');
  }

  lemma ReadSignedTwoDigits(h: nat)
    requires h < 100
    ensures ToNumber("-" + TwoDigits(h)) == Some(0 - h)
  {
    var digits, hour := TwoDigits(h), "-" + TwoDigits(h);
    ReadTwoDigits(h);
    TrimOfTrimmed(digits);
    TrimOfTrimmed(hour);
    assert hour[1..] == digits;
  }

  /** One rendered block of the schedule column. */
  datatype Block = Block(task: Task, position: Position)

  function PlaceTask(t: Task): Block {
    Block(t, TaskPosition(t))
  }

  function BlockTask(b: Block): Task {
    b.task
  }

  /** The schedule column: unscheduled tasks are skipped, the others are placed in list
      order at their computed positions. */
  function Blocks(tasks: seq<Task>): (blocks: seq<Block>)
    ensures |blocks| <= |tasks|
    ensures forall i :: 0 <= i < |blocks| ==>
      IsScheduled(blocks[i].task) && blocks[i].task in tasks
      && blocks[i].position == Position(StartMinute(blocks[i].task.startTime.value), blocks[i].task.duration.value)
    ensures forall t :: t in tasks && IsScheduled(t) ==> exists i :: 0 <= i < |blocks| && blocks[i].task == t
    ensures IsSubsequence(Map(BlockTask, blocks), tasks)
    ensures forall t :: multiset(Map(BlockTask, blocks))[t] == if IsScheduled(t) then multiset(tasks)[t] else 0
  {
    var shown := Filter(IsScheduled, tasks);
    FilterSpec(IsScheduled, tasks);
    var blocks := Map(PlaceTask, shown);
    assert Map(BlockTask, blocks) == shown;
    forall t | t in tasks && IsScheduled(t)
      ensures exists i :: 0 <= i < |blocks| && blocks[i].task == t
    {
      var i :| 0 <= i < |shown| && shown[i] == t;
      assert blocks[i].task == t;
    }
    blocks
  }
}

=== FILE: selected_day.dfy ===
/** The quick-add box of the `SelectedDayTasks` panel: a typed name becomes a task due at
    the selected date, and the box is cleared. */
module SelectedDayPanel {
  import opened Types
  import opened Text
  import Dashboard
  import EditTaskDialog

  /** The box's text after the click, and the draft handed to the dashboard, if any. */
  datatype QuickAdd = QuickAdd(input: string, added: Option<TaskDraft>)

  /** `handleAddTask`: a blank box adds nothing and keeps its text; otherwise the box is
      emptied and a draft is added whose name is the typed text without its surrounding
      whitespace, due at the selected date, with no optional field. */
  function HandleAddTask(input: string, selectedDate: Instant): (r: QuickAdd)
    ensures r.added.None? <==> IsBlank(input)
    ensures r.added.None? ==> r.input == input
    ensures r.added.Some? ==> r.input == ""
    ensures r.added.Some? ==> var d := r.added.value;
      && d.deadline == selectedDate
      && d.topic.None? && d.duration.None? && d.startTime.None? && d.link.None?
    ensures r.added.Some? ==> var name, i := r.added.value.taskName, LeadingWhitespace(input);
      && |name| > 0
      && !IsJsWhitespace(name[0]) && !IsJsWhitespace(name[|name| - 1])
      && i + |name| <= |input| && input[i..i + |name|] == name
      && (forall k :: 0 <= k < i ==> IsJsWhitespace(input[k]))
      && (forall k :: i + |name| <= k < |input| ==> IsJsWhitespace(input[k]))
  {
    var name := Trim(input);
    if |name| == 0 then QuickAdd(input, None)
    else QuickAdd("", Some(TaskDraft(name, selectedDate, None, None, None, None)))
  }

  /** Trimming the text before clicking adds the same draft. */
  lemma TrimBeforeAddIsSame(input: string, selectedDate: Instant)
    ensures HandleAddTask(Trim(input), selectedDate).added == HandleAddTask(input, selectedDate).added
  {
    TrimOfTrimmed(Trim(input));
  }

  /** Once the dashboard has added the draft, the new task is listed, not yet completed,
      in the panel of the day it was added on. */
  lemma AddedTaskShownOnSelectedDay(input: string, selectedDate: Instant, tasks: seq<Task>, nowMs: nat)
    requires !IsBlank(input)
    ensures var draft := HandleAddTask(input, selectedDate).added.value;
      var t := Dashboard.NewTask(draft, nowMs);
      && !t.completed
      && t in Dashboard.SelectedDayTasks(Dashboard.AddTask(tasks, draft, nowMs), Some(selectedDate))
  {
  }

  /** With the schema as written, a quick-added task cannot be saved from the edit dialog
      without also giving it a start time. */
  lemma QuickAddedTaskBlocksEdit(input: string, selectedDate: Instant, nowMs: nat, isUrl: EditTaskDialog.UrlCheck)
    requires !IsBlank(input)
    ensures var t := Dashboard.NewTask(HandleAddTask(input, selectedDate).added.value, nowMs);
      && EditTaskDialog.ValidateAsWritten(EditTaskDialog.Defaults(t), isUrl).Err?
      && EditTaskDialog.Editable(t, isUrl)
      && EditTaskDialog.SubmitEdit(t, EditTaskDialog.Defaults(t), isUrl).Err?
      && EditTaskDialog.SubmitEditCorrected(t, EditTaskDialog.Defaults(t), isUrl).Ok?
  {
    var t := Dashboard.NewTask(HandleAddTask(input, selectedDate).added.value, nowMs);
    EditTaskDialog.AsWrittenRejectsUnscheduled(t, isUrl);
    EditTaskDialog.UntouchedSaveRoundTrip(t, isUrl);
  }
}

=== FILE: seqs.dfy ===
/** Order-preserving selection from a sequence, the shape of every `Array.prototype.filter`
    in the dashboard. */
module Seqs {

  /** `s` is obtained from `t` by deleting elements, keeping the rest in their order. */
  predicate IsSubsequence<T(==)>(s: seq<T>, t: seq<T>)
    decreases |t|
  {
    if |s| == 0 then true
    else if |t| == 0 then false
    else if s[0] == t[0] then IsSubsequence(s[1..], t[1..])
    else IsSubsequence(s, t[1..])
  }

  /** The elements of `s` that satisfy `p`, in their original order. */
  function Filter<T(==, !new)>(p: T -> bool, s: seq<T>): (r: seq<T>)
    ensures |r| <= |s|
  {
    if |s| == 0 then []
    else if p(s[0]) then [s[0]] + Filter(p, s[1..])
    else Filter(p, s[1..])
  }

  /** The filter keeps exactly the satisfying elements, in order, each as often as it occurs. */
  lemma {:induction false} FilterSpec<T(!new)>(p: T -> bool, s: seq<T>)
    ensures forall x :: x in Filter(p, s) <==> x in s && p(x)
    ensures IsSubsequence(Filter(p, s), s)
    ensures forall x :: multiset(Filter(p, s))[x] == if p(x) then multiset(s)[x] else 0
    decreases |s|
  {
    if |s| > 0 {
      FilterSpec(p, s[1..]);
      assert s == [s[0]] + s[1..];
      var r := Filter(p, s);
      if p(s[0]) {
        assert r[0] == s[0] && r[1..] == Filter(p, s[1..]);
      } else {
        SubsequenceOfTail(r, s);
      }
    }
  }

  /** A subsequence of the tail of `s` is a subsequence of `s`. */
  lemma {:induction false} SubsequenceOfTail<T>(r: seq<T>, s: seq<T>)
    requires |s| > 0 && IsSubsequence(r, s[1..])
    ensures IsSubsequence(r, s)
    decreases |s|, |r|
  {
    if |r| > 0 && r[0] == s[0] {
      SubsequenceDropHead(r, s[1..]);
    }
  }

  /** A subsequence stays one after removing its first element. */
  lemma {:induction false} SubsequenceDropHead<T>(r: seq<T>, t: seq<T>)
    requires |r| > 0 && IsSubsequence(r, t)
    ensures IsSubsequence(r[1..], t)
    decreases |t|, |r|
  {
    if r[0] == t[0] {
      SubsequenceOfTail(r[1..], t);
    } else {
      SubsequenceDropHead(r, t[1..]);
      SubsequenceOfTail(r[1..], t);
    }
  }

  /** A non-empty sequence is its prefix followed by its last element. */
  lemma InitAndLast<T>(s: seq<T>)
    requires |s| > 0
    ensures s == s[..|s| - 1] + [s[|s| - 1]]
  {
  }

  /** A non-empty sequence is its first element followed by the rest. */
  lemma HeadAndTail<T>(s: seq<T>)
    requires |s| > 0
    ensures s == [s[0]] + s[1..]
  {
  }

  /** Filtering a list with a first element decides that element, then filters the rest. */
  lemma FilterCons<T(!new)>(p: T -> bool, x: T, s: seq<T>)
    ensures Filter(p, [x] + s) == (if p(x) then [x] else []) + Filter(p, s)
  {
    assert ([x] + s)[0] == x && ([x] + s)[1..] == s;
  }

  /** Putting the same element in front of two lists keeps a relation between their filters. */
  lemma FilterConsExtends<T(!new)>(p: T -> bool, x: T, a: seq<T>, b: seq<T>, tail: seq<T>)
    requires Filter(p, a) == Filter(p, b) + tail
    ensures Filter(p, [x] + a) == Filter(p, [x] + b) + tail
  {
    FilterCons(p, x, a);
    FilterCons(p, x, b);
  }

  /** Filtering a concatenation filters each part. */
  lemma {:induction false} FilterAppend<T(!new)>(p: T -> bool, a: seq<T>, b: seq<T>)
    ensures Filter(p, a + b) == Filter(p, a) + Filter(p, b)
    decreases |a|
  {
    if |a| == 0 {
      assert a + b == b;
    } else {
      assert (a + b)[1..] == a[1..] + b;
      FilterAppend(p, a[1..], b);
    }
  }

  /** The positions of `s` whose element satisfies `p`. */
  function PositionsWhere<T>(p: T -> bool, s: seq<T>): set<int> {
    set i | 0 <= i < |s| && p(s[i])
  }

  /** The length of the filter is the number of positions whose element satisfies `p`. */
  lemma {:induction false} FilterCountsIndices<T(!new)>(p: T -> bool, s: seq<T>)
    ensures |Filter(p, s)| == |PositionsWhere(p, s)|
    decreases |s|
  {
    if |s| > 0 {
      var init, last := s[..|s| - 1], s[|s| - 1];
      FilterCountsIndices(p, init);
      InitAndLast(s);
      FilterAppend(p, init, [last]);
      FilterCons(p, last, []);
      assert [last] + [] == [last];
      var before, all := PositionsWhere(p, init), PositionsWhere(p, s);
      if p(last) {
        assert all == before + {|s| - 1};
      } else {
        assert all == before;
      }
    }
  }

  /** The filter keeps every element exactly when every element satisfies the predicate. */
  lemma {:induction false} FilterKeepsAllIff<T(!new)>(p: T -> bool, s: seq<T>)
    ensures |Filter(p, s)| == |s| <==> forall x :: x in s ==> p(x)
    decreases |s|
  {
    if |s| > 0 {
      FilterKeepsAllIff(p, s[1..]);
      if !p(s[0]) {
        assert |Filter(p, s[1..])| <= |s[1..]|;
      } else {
        assert forall x :: x in s ==> x == s[0] || x in s[1..];
      }
    }
  }

  /** The filter keeps nothing exactly when no element satisfies the predicate. */
  lemma FilterKeepsNoneIff<T(!new)>(p: T -> bool, s: seq<T>)
    ensures |Filter(p, s)| == 0 <==> forall x :: x in s ==> !p(x)
  {
    var r := Filter(p, s);
    if |r| > 0 {
      assert r[0] in r;
    }
  }

  /** The elements of `s` mapped through `f`, position by position. */
  function Map<T, U>(f: T -> U, s: seq<T>): (r: seq<U>)
    ensures |r| == |s|
    ensures forall i :: 0 <= i < |s| ==> r[i] == f(s[i])
  {
    seq(|s|, i requires 0 <= i < |s| => f(s[i]))
  }
}

=== FILE: task_card.dfy ===
/** `TaskCard`: the list card the dashboard shows for today, the weekend and the month.
    The model keeps the three choices the card makes: the icon, the deadline colour and
    the empty-state message. */
module TaskCard {
  import opened Types
  import opened Text
  import opened Calendar

  datatype Icon = Target | Coffee

  const TodayTitle: string := "Today's Focus"
  const WeekendTitle: string := "This Weekend's Grind"
  const MonthlyTitle: string := "All Monthly Tasks"

  /** The card's icon: a target for a title mentioning today, a coffee cup otherwise. */
  function IconFor(title: string): (icon: Icon)
    ensures icon == Target <==> Contains(title, "Today")
  {
    if Contains(title, "Today") then Target else Coffee
  }

  /** The "today" card of the dashboard carries the target icon ... */
  lemma TodayCardIcon()
    ensures IconFor(TodayTitle) == Target
  {
    assert StartsWith(TodayTitle, "Today");
  }

  /** ... and the weekend and monthly cards the coffee cup. */
  lemma WeekendCardIcon()
    ensures IconFor(WeekendTitle) == Coffee
  {
    MissingLetter(WeekendTitle, 4);
  }

  lemma MonthlyCardIcon()
    ensures IconFor(MonthlyTitle) == Coffee
  {
    MissingLetter(MonthlyTitle, 2);
  }

  /** A title lacking one of the letters of "Today" does not mention today. */
  lemma MissingLetter(title: string, k: nat)
    requires k < 5 && "Today"[k] !in title
    ensures !Contains(title, "Today")
  {
    ContainsIff(title, "Today");
    forall i | 0 <= i <= |title| - 5
      ensures !OccursAt(title, "Today", i)
    {
      assert title[i..i + 5][k] == title[i + k];
    }
  }

  const OverdueColor: string := "text-red-500"
  const NormalColor: string := "text-muted-foreground"

  /** Overdue: the deadline has passed and is not on today's date. */
  predicate IsOverdue(deadline: Instant, now: Instant) {
    IsPast(deadline, now) && !IsToday(deadline, now)
  }

  /** `getDeadlineColor`: red for an overdue deadline, muted otherwise. */
  function DeadlineColor(deadline: Instant, now: Instant): (colour: string)
    ensures colour == OverdueColor || colour == NormalColor
    ensures colour == OverdueColor <==> IsOverdue(deadline, now)
  {
    if IsOverdue(deadline, now) then OverdueColor else NormalColor
  }

  /** A deadline is overdue exactly when it falls on an earlier calendar day than now. */
  lemma OverdueIffEarlierDay(deadline: Instant, now: Instant)
    ensures IsOverdue(deadline, now) <==> DayOf(deadline) < DayOf(now)
  {
    if DayOf(deadline) < DayOf(now) {
      assert (DayOf(now) - DayOf(deadline) - 1) * MsPerDay >= 0;
      assert deadline < StartOfDay(deadline) + MsPerDay <= StartOfDay(now) <= now;
    } else if deadline < now {
      DayOfMonotone(deadline, now);
    }
  }

  /** A deadline earlier today, even by hours, is never shown in red. */
  lemma EarlierTodayNotFlagged(deadline: Instant, now: Instant)
    requires deadline <= now && IsSameDay(deadline, now)
    ensures DeadlineColor(deadline, now) == NormalColor
  {
    OverdueIffEarlierDay(deadline, now);
  }

  const TodayEmptyMessage: string := "No tasks for today. Great job!"
  const WeekendEmptyMessage: string := "No weekend tasks scheduled."

  /** The text shown when the card's list is empty. */
  function EmptyMessage(isTodayCard: bool): (message: string)
    ensures message == TodayEmptyMessage <==> isTodayCard
    ensures message == WeekendEmptyMessage <==> !isTodayCard
  {
    if isTodayCard then TodayEmptyMessage else WeekendEmptyMessage
  }
}

=== FILE: text.dfy ===
/** The string operations the components use: `String.prototype.trim`, `startsWith`,
    `includes`, `split`, and the `Number(string)` conversion, on strings as `seq<char>`. */
module Text {
  import opened Types

  /** The characters JavaScript's `trim` and `Number` strip: WhiteSpace and
      LineTerminator of the ECMAScript grammar. */
  predicate IsJsWhitespace(c: char) {
    || c == ' ' || c == '\t' || c == '\n' || c == '\U{000B}' || c == '\U{000C}' || c == '\r'
    || c == '\U{00A0}' || c == '\U{1680}' || ('\U{2000}' <= c <= '\U{200A}')
    || c == '\U{2028}' || c == '\U{2029}' || c == '\U{202F}' || c == '\U{205F}'
    || c == '\U{3000}' || c == '\U{FEFF}'
  }

  predicate IsBlank(s: string) {
    forall k :: 0 <= k < |s| ==> IsJsWhitespace(s[k])
  }

  /** The number of whitespace characters at the front of `s`. */
  function LeadingWhitespace(s: string): (n: nat)
    ensures n <= |s|
    ensures forall k :: 0 <= k < n ==> IsJsWhitespace(s[k])
    ensures n < |s| ==> !IsJsWhitespace(s[n])
  {
    if |s| == 0 || !IsJsWhitespace(s[0]) then 0 else 1 + LeadingWhitespace(s[1..])
  }

  /** The number of whitespace characters at the back of `s`. */
  function TrailingWhitespace(s: string): (n: nat)
    ensures n <= |s|
    ensures forall k :: |s| - n <= k < |s| ==> IsJsWhitespace(s[k])
    ensures n < |s| ==> !IsJsWhitespace(s[|s| - n - 1])
  {
    if |s| == 0 || !IsJsWhitespace(s[|s| - 1]) then 0
    else 1 + TrailingWhitespace(s[..|s| - 1])
  }

  /** `s.trim()`: the longest middle slice of `s` that neither starts nor ends with whitespace. */
  function Trim(s: string): (r: string)
    ensures LeadingWhitespace(s) + |r| <= |s|
    ensures r == s[LeadingWhitespace(s) .. LeadingWhitespace(s) + |r|]
    ensures forall k :: LeadingWhitespace(s) + |r| <= k < |s| ==> IsJsWhitespace(s[k])
    ensures |r| > 0 ==> !IsJsWhitespace(r[0]) && !IsJsWhitespace(r[|r| - 1])
    ensures |r| == 0 <==> IsBlank(s)
  {
    var i := LeadingWhitespace(s);
    var rest := s[i..];
    var j := TrailingWhitespace(rest);
    assert |rest| > 0 ==> j < |rest|;
    rest[..|rest| - j]
  }

  /** A string with no whitespace at either end is its own trim. */
  lemma TrimOfTrimmed(s: string)
    requires |s| > 0 ==> !IsJsWhitespace(s[0]) && !IsJsWhitespace(s[|s| - 1])
    ensures Trim(s) == s
  {
  }

  /** `s.startsWith(p)`. */
  predicate StartsWith(s: string, p: string) {
    |p| <= |s| && s[..|p|] == p
  }

  /** `s.includes(p)`, computed by trying every start position from the left. */
  predicate Contains(s: string, p: string)
    decreases |s|
  {
    StartsWith(s, p) || (|s| > 0 && Contains(s[1..], p))
  }

  /** `p` occurs in `s` starting at index `i`. */
  predicate OccursAt(s: string, p: string, i: int) {
    0 <= i <= |s| - |p| && s[i..i + |p|] == p
  }

  /** `Contains` holds exactly when `p` occurs at some position of `s`. */
  lemma {:induction false} ContainsIff(s: string, p: string)
    ensures Contains(s, p) <==> exists i :: OccursAt(s, p, i)
    decreases |s|
  {
    if |s| > 0 {
      ContainsIff(s[1..], p);
      if exists i :: OccursAt(s, p, i) {
        var i :| OccursAt(s, p, i);
        if i == 0 {
          assert s[..|p|] == s[0..0 + |p|];
        } else {
          assert s[1..][i - 1..i - 1 + |p|] == s[i..i + |p|];
          assert OccursAt(s[1..], p, i - 1);
        }
      }
      if StartsWith(s, p) {
        assert s[..|p|] == s[0..0 + |p|];
        assert OccursAt(s, p, 0);
      } else if Contains(s[1..], p) {
        var i :| OccursAt(s[1..], p, i);
        assert s[1..][i..i + |p|] == s[i + 1..i + 1 + |p|];
        assert OccursAt(s, p, i + 1);
      }
    } else if Contains(s, p) {
      assert OccursAt(s, p, 0);
    }
  }

  predicate IsDigit(c: char) {
    '0' <= c <= '9'
  }

  predicate AllDigits(s: string) {
    forall k :: 0 <= k < |s| ==> IsDigit(s[k])
  }

  function DigitValue(c: char): (d: nat)
    requires IsDigit(c)
    ensures d < 10
  {
    c as int - '0' as int
  }

  function DigitChar(d: nat): (c: char)
    requires d < 10
    ensures IsDigit(c) && DigitValue(c) == d
  {
    ('0' as int + d) as char
  }

  /** The value of a string of decimal digits, most significant first. */
  function DecimalValue(s: string): nat
    requires AllDigits(s)
  {
    if |s| == 0 then 0 else 10 * DecimalValue(s[..|s| - 1]) + DigitValue(s[|s| - 1])
  }

  /** A non-empty run of decimal digits and its value; anything else is not a decimal literal. */
  function ParseDecimal(s: string): Option<nat> {
    if |s| > 0 && AllDigits(s) then Some(DecimalValue(s)) else None
  }

  /** The decimal digits of `n` without leading zeros (`String(n)` for a natural `n`). */
  function NatToDecimal(n: nat): (r: string)
    ensures |r| > 0 && AllDigits(r)
    ensures |r| > 1 ==> r[0] != '0'
  {
    if n < 10 then [DigitChar(n)] else NatToDecimal(n / 10) + [DigitChar(n % 10)]
  }

  /** Reading back the digits that `NatToDecimal` wrote gives the number again. */
  lemma {:induction false} DecimalRoundTrip(n: nat)
    ensures ParseDecimal(NatToDecimal(n)) == Some(n)
  {
    var r := NatToDecimal(n);
    if n >= 10 {
      DecimalRoundTrip(n / 10);
      assert r[..|r| - 1] == NatToDecimal(n / 10);
      assert DecimalValue(r) == 10 * (n / 10) + n % 10;
    }
  }

  /** `NatToDecimal` never maps two numbers to the same string. */
  lemma NatToDecimalInjective(a: nat, b: nat)
    requires NatToDecimal(a) == NatToDecimal(b)
    ensures a == b
  {
    DecimalRoundTrip(a);
    DecimalRoundTrip(b);
  }

  /** Text that `Number` reads as an integer: nothing at all, or a non-empty run of decimal
      digits with at most one leading sign. */
  predicate IsIntegerText(t: string) {
    || |t| == 0
    || AllDigits(t)
    || (|t| > 1 && (t[0] == '-' || t[0] == '+') && AllDigits(t[1..]))
  }

  /** `Number(String(n))` is `n` for a natural number `n`. */
  lemma NumberOfDecimal(n: nat)
    ensures ToNumber(NatToDecimal(n)) == Some(n)
  {
    var r := NatToDecimal(n);
    assert !IsJsWhitespace(r[0]) && !IsJsWhitespace(r[|r| - 1]) by {
      assert IsDigit(r[0]) && IsDigit(r[|r| - 1]);
    }
    TrimOfTrimmed(r);
    DecimalRoundTrip(n);
  }

  /** JavaScript's `Number(s)` on a string, restricted to the integer forms: surrounding
      whitespace is ignored, the empty string is 0, a run of decimal digits is its value,
      with an optional leading `-` or `+`; every other string is NaN, written `None`. */
  function ToNumber(s: string): (r: Option<int>)
    ensures IsBlank(s) ==> r == Some(0)
    ensures var t := Trim(s); |t| > 0 && AllDigits(t) ==> r == Some(DecimalValue(t))
    ensures var t := Trim(s); |t| > 1 && t[0] == '-' && AllDigits(t[1..]) ==> r == Some(0 - DecimalValue(t[1..]) as int)
    ensures var t := Trim(s); |t| > 1 && t[0] == '+' && AllDigits(t[1..]) ==> r == Some(DecimalValue(t[1..]) as int)
    ensures r.None? <==> !IsIntegerText(Trim(s))
    ensures r.Some? && r.value < 0 ==> Trim(s)[0] == '-'
  {
    var t := Trim(s);
    if |t| == 0 then Some(0)
    else if t[0] == '-' || t[0] == '+' then
      match ParseDecimal(t[1..])
      case Some(v) => Some(if t[0] == '-' then 0 - v as int else v)
      case None => None
    else match ParseDecimal(t)
      case Some(v) => Some(v)
      case None => None
  }

  /** `s.split(sep)` for a one-character separator: the maximal separator-free pieces. */
  function Split(s: string, sep: char): (parts: seq<string>)
    ensures |parts| >= 1
    ensures forall i :: 0 <= i < |parts| ==> sep !in parts[i]
  {
    if |s| == 0 then [""]
    else
      var rest := Split(s[1..], sep);
      if s[0] == sep then [""] + rest else [[s[0]] + rest[0]] + rest[1..]
  }

  /** The inverse of `Split`: the pieces glued back together with the separator. */
  function Join(parts: seq<string>, sep: char): string
    requires |parts| >= 1
  {
    if |parts| == 1 then parts[0] else parts[0] + [sep] + Join(parts[1..], sep)
  }

  /** Splitting and re-joining gives the original string back. */
  lemma {:induction false} SplitJoin(s: string, sep: char)
    ensures Join(Split(s, sep), sep) == s
    decreases |s|
  {
    if |s| > 0 {
      SplitJoin(s[1..], sep);
      var rest := Split(s[1..], sep);
      if s[0] == sep {
        assert Split(s, sep)[1..] == rest;
      } else {
        var parts := Split(s, sep);
        if |rest| == 1 {
          assert parts == [[s[0]] + rest[0]];
        } else {
          assert parts[1..] == rest[1..];
          assert Join(rest, sep) == rest[0] + [sep] + Join(rest[1..], sep);
        }
      }
    }
  }

  /** Splitting `a + [sep] + b` where `a` holds no separator yields `a` followed by the pieces of `b`. */
  lemma {:induction false} SplitAtFirst(a: string, b: string, sep: char)
    requires sep !in a
    ensures Split(a + [sep] + b, sep) == [a] + Split(b, sep)
    decreases |a|
  {
    if |a| == 0 {
      assert (a + [sep] + b)[1..] == b;
    } else {
      assert (a + [sep] + b)[1..] == a[1..] + [sep] + b;
      SplitAtFirst(a[1..], b, sep);
      assert [a[0]] + a[1..] == a;
    }
  }

  /** A string without the separator splits into itself. */
  lemma {:induction false} SplitNoSeparator(a: string, sep: char)
    requires sep !in a
    ensures Split(a, sep) == [a]
    decreases |a|
  {
    if |a| > 0 {
      SplitNoSeparator(a[1..], sep);
      assert [a[0]] + a[1..] == a;
    }
  }
}

=== FILE: time_format.dfy ===
/** Clock times written as `"HH:MM"`: the form the edit dialog accepts for a start time
    and the scheduler reads back into a minute offset. */
module TimeFormat {
  import opened Types
  import opened Text

  /** `n` with a leading zero when it is below ten. */
  function TwoDigits(n: nat): (r: string)
    requires n < 100
    ensures |r| == 2 && AllDigits(r)
  {
    [DigitChar(n / 10), DigitChar(n % 10)]
  }

  /** Hour `h` and minute `m` as `"HH:MM"`. */
  function TimeText(h: nat, m: nat): (r: string)
    requires h < 24 && m < 60
    ensures |r| == 5 && r[2] == ':'
  {
    TwoDigits(h) + ":" + TwoDigits(m)
  }

  /** The start-time pattern of the edit form, read character by character: an hour that is
      `0` or `1` followed by any digit, or `2` followed by `0`-`3`; a colon; a minute that is
      `0`-`5` followed by any digit; nothing before or after. */
  predicate MatchesTimePattern(s: string) {
    |s| == 5
    && ((('0' <= s[0] <= '1') && IsDigit(s[1])) || (s[0] == '2' && '0' <= s[1] <= '3'))
    && s[2] == ':'
    && '0' <= s[3] <= '5' && IsDigit(s[4])
  }

  lemma TwoDigitsOf(s: string)
    requires |s| == 2 && AllDigits(s)
    ensures 10 * DigitValue(s[0]) + DigitValue(s[1]) < 100
    ensures s == TwoDigits(10 * DigitValue(s[0]) + DigitValue(s[1]))
  {
    var n := 10 * DigitValue(s[0]) + DigitValue(s[1]);
    assert n / 10 == DigitValue(s[0]) && n % 10 == DigitValue(s[1]);
  }

  /** The pattern admits exactly the zero-padded times of day 00:00 through 23:59. */
  lemma TimePatternIff(s: string)
    ensures MatchesTimePattern(s) <==> exists h: nat, m: nat :: h < 24 && m < 60 && s == TimeText(h, m)
  {
    if MatchesTimePattern(s) {
      var hs, ms := s[..2], s[3..];
      TwoDigitsOf(hs);
      TwoDigitsOf(ms);
      var h, m := 10 * DigitValue(hs[0]) + DigitValue(hs[1]), 10 * DigitValue(ms[0]) + DigitValue(ms[1]);
      assert s == hs + ":" + ms;
      assert s == TimeText(h, m);
    }
    if exists h: nat, m: nat :: h < 24 && m < 60 && s == TimeText(h, m) {
      var h: nat, m: nat :| h < 24 && m < 60 && s == TimeText(h, m);
      TimeTextMatches(h, m);
    }
  }

  lemma TimeTextMatches(h: nat, m: nat)
    requires h < 24 && m < 60
    ensures MatchesTimePattern(TimeText(h, m))
  {
    var s := TimeText(h, m);
    assert s[0] == DigitChar(h / 10) && s[1] == DigitChar(h % 10);
    assert s[3] == DigitChar(m / 10) && s[4] == DigitChar(m % 10);
  }

  /** `Number` reads a two-digit field back as the number it was written from. */
  lemma ReadTwoDigits(n: nat)
    requires n < 100
    ensures ToNumber(TwoDigits(n)) == Some(n)
  {
    var s := TwoDigits(n);
    assert !IsJsWhitespace(s[0]) && !IsJsWhitespace(s[1]);
    TrimOfTrimmed(s);
    assert s[..1][..0] == [];
    assert DecimalValue(s[..1]) == n / 10;
  }

  /** Splitting `"HH:MM"` at the colon gives the two fields. */
  lemma SplitTimeText(h: nat, m: nat)
    requires h < 24 && m < 60
    ensures Split(TimeText(h, m), ':') == [TwoDigits(h), TwoDigits(m)]
  {
    var a, b := TwoDigits(h), TwoDigits(m);
    assert ':' !in a && ':' !in b;
    SplitAtFirst(a, b, ':');
    SplitNoSeparator(b, ':');
  }
}

=== FILE: types.dfy ===
/** The task record shared by every component, and the small wrappers the model uses
    for optional fields and validation outcomes. */
module Types {

  /** An optional value; `None` stands for a JavaScript `undefined` field. */
  datatype Option<+T> = None | Some(value: T) {
    function GetOr(default: T): T {
      match this
      case Some(v) => v
      case None => default
    }
  }

  /** The outcome of a validation: the accepted value, or what was wrong with it. */
  datatype Result<+T, +E> = Ok(value: T) | Err(error: E)

  /** An octet. */
  type Byte = x: int | 0 <= x < 256

  /** A deadline or any other point in time, as milliseconds since the Unix epoch. */
  type Instant = int

  /** A study task: id, name, deadline and completion flag are always present;
      topic, duration (in minutes), start time (`"HH:MM"`) and link may be absent. */
  datatype Task = Task(
    id: string,
    taskName: string,
    deadline: Instant,
    completed: bool,
    topic: Option<string>,
    duration: Option<int>,
    startTime: Option<string>,
    link: Option<string>)

  /** A task before the dashboard has given it an id and a completion flag
      (the source's `Omit<Task, 'id' | 'completed'>`). */
  datatype TaskDraft = TaskDraft(
    taskName: string,
    deadline: Instant,
    topic: Option<string>,
    duration: Option<int>,
    startTime: Option<string>,
    link: Option<string>)
}

=== FILE: utf8.dfy ===
/** UTF-8, the encoding Node's `Buffer.from(string)` applies to a string before it is
    turned into base 64, with a strict decoder as its inverse; and the UTF-16 length
    that JavaScript reports as a string's `length`. */
module Utf8 {
  import opened Types
  import opened Seqs

  /** A Unicode scalar value: a code point outside the surrogate range. */
  predicate IsScalar(v: int) {
    (0 <= v < 0xD800) || (0xE000 <= v < 0x11_0000)
  }

  /** A character outside the basic multilingual plane. */
  predicate IsSupplementary(c: char) {
    c as int >= 0x1_0000
  }

  /** The number of UTF-16 code units of `s`: one per character, and one more for each
      character outside the basic multilingual plane, which takes a surrogate pair. */
  function Utf16Length(s: string): (n: nat)
    ensures |s| <= n <= 2 * |s|
    ensures n == |s| + |Filter(IsSupplementary, s)|
    ensures (forall k :: 0 <= k < |s| ==> !IsSupplementary(s[k])) ==> n == |s|
  {
    if |s| == 0 then 0
    else (if s[0] as int < 0x1_0000 then 1 else 2) + Utf16Length(s[1..])
  }

  function ContinuationByte(v: int): Byte
    requires 0 <= v
  {
    0x80 + v % 64
  }

  /** The one to four bytes of `c`: the leading byte announces the length, every further
      byte carries six bits and has the form `10xxxxxx`. */
  function EncodeChar(c: char): (bs: seq<Byte>)
    ensures 1 <= |bs| <= 4
    ensures |bs| == 1 <==> c as int < 0x80
  {
    var v := c as int;
    if v < 0x80 then [v]
    else if v < 0x800 then [0xC0 + v / 64, ContinuationByte(v)]
    else if v < 0x1_0000 then [0xE0 + v / 4096, ContinuationByte(v / 64), ContinuationByte(v)]
    else [0xF0 + v / 0x4_0000, ContinuationByte(v / 4096), ContinuationByte(v / 64), ContinuationByte(v)]
  }

  /** The UTF-8 encoding of `s`. */
  function Encode(s: string): (bs: seq<Byte>)
    ensures |s| <= |bs| <= 4 * |s|
  {
    if |s| == 0 then [] else EncodeChar(s[0]) + Encode(s[1..])
  }

  predicate IsContinuation(b: Byte) {
    0x80 <= b < 0xC0
  }

  /** The scalar value of a well-formed sequence of `n` bytes (`n` = 1 .. 4), or `None`
      when a continuation byte is malformed, the form is overlong, or the value is not a
      scalar. */
  function DecodeValue(bs: seq<Byte>, n: nat): Option<char>
    requires 1 <= n <= 4 && n <= |bs|
  {
    if n == 1 then
      Some(bs[0] as char)
    else if exists k :: 1 <= k < n && !IsContinuation(bs[k]) then
      None
    else
      var v :=
        if n == 2 then (bs[0] as int - 0xC0) * 64 + (bs[1] as int - 0x80)
        else if n == 3 then (bs[0] as int - 0xE0) * 4096 + (bs[1] as int - 0x80) * 64 + (bs[2] as int - 0x80)
        else (bs[0] as int - 0xF0) * 0x4_0000 + (bs[1] as int - 0x80) * 4096 + (bs[2] as int - 0x80) * 64 + (bs[3] as int - 0x80);
      var least := if n == 2 then 0x80 else if n == 3 then 0x800 else 0x1_0000;
      if least <= v && IsScalar(v) then Some(v as char) else None
  }

  /** The length of the sequence a leading byte announces, or 0 for a byte that cannot
      lead one. */
  function SequenceLength(b: Byte): nat {
    if b < 0x80 then 1
    else if b < 0xC0 then 0
    else if b < 0xE0 then 2
    else if b < 0xF0 then 3
    else if b < 0xF8 then 4
    else 0
  }

  /** Strict UTF-8 decoding: `None` unless `bs` is a well-formed encoding. */
  function Decode(bs: seq<Byte>): Option<string>
    decreases |bs|
  {
    if |bs| == 0 then Some("")
    else
      var n := SequenceLength(bs[0]);
      if n == 0 || n > |bs| then None
      else match DecodeValue(bs, n)
        case None => None
        case Some(c) =>
          match Decode(bs[n..])
          case None => None
          case Some(rest) => Some([c] + rest)
  }

  lemma TwoByteChar(v: int)
    requires 0x80 <= v < 0x800
    ensures var b0, b1 := 0xC0 + v / 64, ContinuationByte(v);
      && SequenceLength(b0) == 2 && IsContinuation(b1)
      && (b0 - 0xC0) * 64 + (b1 - 0x80) == v
  {
  }

  lemma ThreeByteChar(v: int)
    requires 0x800 <= v < 0x1_0000
    ensures var b0, b1, b2 := 0xE0 + v / 4096, ContinuationByte(v / 64), ContinuationByte(v);
      && SequenceLength(b0) == 3 && IsContinuation(b1) && IsContinuation(b2)
      && (b0 - 0xE0) * 4096 + (b1 - 0x80) * 64 + (b2 - 0x80) == v
  {
    assert v == (v / 4096) * 4096 + ((v / 64) % 64) * 64 + v % 64;
  }

  lemma FourByteChar(v: int)
    requires 0x1_0000 <= v < 0x11_0000
    ensures var b0, b1, b2, b3 := 0xF0 + v / 0x4_0000, ContinuationByte(v / 4096), ContinuationByte(v / 64), ContinuationByte(v);
      && SequenceLength(b0) == 4 && IsContinuation(b1) && IsContinuation(b2) && IsContinuation(b3)
      && (b0 - 0xF0) * 0x4_0000 + (b1 - 0x80) * 4096 + (b2 - 0x80) * 64 + (b3 - 0x80) == v
  {
    assert v / 4096 == (v / 0x4_0000) * 64 + (v / 4096) % 64;
    assert v / 64 == (v / 4096) * 64 + (v / 64) % 64;
    assert v == (v / 64) * 64 + v % 64;
  }

  /** The bytes of one character, followed by anything, decode to that character first. */
  lemma DecodeEncodeChar(c: char, rest: seq<Byte>)
    ensures var bs := EncodeChar(c) + rest;
      && SequenceLength(bs[0]) == |EncodeChar(c)|
      && DecodeValue(bs, |EncodeChar(c)|) == Some(c)
  {
    var v := c as int;
    var bs := EncodeChar(c) + rest;
    if v < 0x80 {
    } else if v < 0x800 {
      TwoByteChar(v);
    } else if v < 0x1_0000 {
      ThreeByteChar(v);
    } else {
      FourByteChar(v);
    }
  }

  lemma DecodeStep(c: char, rest: seq<Byte>, tail: string)
    requires Decode(rest) == Some(tail)
    ensures Decode(EncodeChar(c) + rest) == Some([c] + tail)
  {
    var bs := EncodeChar(c) + rest;
    DecodeEncodeChar(c, rest);
    assert bs[|EncodeChar(c)|..] == rest;
  }

  /** Decoding undoes encoding. */
  lemma {:induction false} RoundTrip(s: string)
    ensures Decode(Encode(s)) == Some(s)
  {
    if |s| > 0 {
      RoundTrip(s[1..]);
      DecodeStep(s[0], Encode(s[1..]), s[1..]);
      assert [s[0]] + s[1..] == s;
    }
  }
}
